=== FILE: README.md ===
# A verified model of `collect_plate_formats.py`

`scripts/collect_plate_formats.py` builds the plate-format dataset of platelab. It walks a
fixed table of 44 European countries. For each one it fetches the wikitext of
"Vehicle_registration_plates_of_<country>" from Wikipedia and asks a language model
(`gpt-4o-mini`) to extract the format of the current standard plate. It stores the reply,
stamped with provenance keys, under the country's ISO code in
`dataset/metadata/plate_formats.json`.

This project is a Dafny model of that script's logic and a set of proofs about it:

- **Text** (`text.dfy`): the Python string operations the script relies on, over `seq<char>`:
  - `str.isspace`, `strip`, `lstrip` and `rstrip`;
  - `split("\n", 1)`;
  - `endswith`;
  - `upper` (enough of it to decide whether a `--country` argument names a table code).
- **Fetcher** (`fetcher.dfy`): how the article title is built from a country's suffix.
- **Extractor** (`extractor.dfy`): the two pure steps of `extract_with_openai`:
  - the 80 000-character budget and its truncation marker;
  - the clean-up of the model's reply (strip, drop a markdown code fence, strip again) before `json.loads`.
- **Countries** (`countries.dfy`):
  - the `COUNTRIES` table, proved to be a faithful dict: 44 rows, distinct codes, each code two ASCII capitals;
  - the `--country` selection: `if args.country`, `.upper()`, then the unknown-code exit.
- **Collector** (`collector.dfy`): `main` after argument parsing, as a fold over the selected countries.
  - The fold carries the entries map, the `success` / `failed` / `skipped` counters and a trace of effects: page fetch, model call, file write.
  - The outside world is an input, a `World`:
    - the fetch outcome of each title;
    - the model's reply to each (country name, article text) pair;
    - `json.loads`;
    - the clock.
  - Every exception that no handler catches ends the run as a `Halted` result, carrying the state reached so far.
- **RunProperties** (`run_properties.dfy`): what a whole run guarantees:
  - resuming from the stored file;
  - the counters;
  - the dry run;
  - single-country mode;
  - which replies become entries.

Supporting modules: `Wrappers` (`Option`, `Result`) and `Json` (JSON values and Python truthiness).

Two behaviours of the code differ from what a reader of its usage notes might expect. The model follows the code:

- A failing fetch ends the whole run. That covers an HTTP error status after the single 429 retry, and a transport error. `fetch_article_wikitext` is called at line 240, outside the `try` of lines 255-278. So `raise_for_status` and the transport errors are not caught, and are not counted as failures (`RunProperties.FetchErrorCrashesStep`); the crash ends the loop at that country, and the countries after it are never visited (`RunProperties.LoopStopsAtCrash`). A title with no article, by contrast, is counted as a failure (`RunProperties.MissingArticleFails`).
- `--country XX` does not load the stored file (line 220), yet outside a dry run it writes the file after a success (lines 268-269) and after the loop (lines 281-284). So a `--country XX` run that is not a dry run and finishes leaves a document holding the entry for XX, or no entry at all: every other country's entry is gone from the file (`RunProperties.SingleCountryRewritesFile`). A dry run never writes (`RunProperties.DryRunOnlyFetches`), and a `--country` run that halts has written nothing (`RunProperties.SingleCountryHaltWritesNothing`); both leave the file as it was.

Four other uncaught exceptions also end the run. None of them is counted as a failure (`RunProperties.RaisedReplyCrashesStep` for the three reply cases, and `RunProperties.LoopStopsAtCrash` for the end of the loop):

- The model returns `null` content, so `.strip()` is called on `None` (line 157).
- A fenced reply has no newline, so `split("\n", 1)[1]` raises `IndexError` (line 161).
- The reply parses to a truthy JSON value that is not an object, so the item assignment at line 258 raises `TypeError`.
- The stored file is not JSON (line 222).

## Model

| member | source | states |
|---|---|---|
| Json.Truthy | scripts/collect_plate_formats.py:257 | `if result:` on a decoded value: null, false, zero, the empty string and empty containers are falsy, everything else is truthy |
| Text.IsSpace | scripts/collect_plate_formats.py:157 | the characters `strip()` removes: those Python's `str.isspace()` accepts (the ASCII controls 0x09-0x0D and 0x1C-0x1F, space, and the Unicode spaces and separators) |
| Text.TrimStart | scripts/collect_plate_formats.py:157 | `lstrip()`: the result is a suffix of the text, everything cut off is whitespace, and it does not start with whitespace |
| Text.TrimEnd | scripts/collect_plate_formats.py:157 | `rstrip()`: the result is a prefix of the text, everything cut off is whitespace, and it does not end with whitespace |
| Text.Strip | scripts/collect_plate_formats.py:157 | `strip()` leaves no whitespace at either end and never lengthens the text |
| Text.StripTrims | scripts/collect_plate_formats.py:157 | `strip()` is `rstrip()` after `lstrip()` |
| Text.StripRemovesOnlySpace | scripts/collect_plate_formats.py:157 | what `strip()` returns is a slice of its argument with only whitespace before and after it |
| Text.StripPadded | scripts/collect_plate_formats.py:164 | stripping a string with no outer whitespace, padded with whitespace on both sides, gives back exactly that string; with `Strip`'s own contract this pins the result down |
| Text.StripBare | scripts/collect_plate_formats.py:164 | a string with no outer whitespace is left alone, so stripping twice is stripping once |
| Text.EndsWith | scripts/collect_plate_formats.py:162 | `endswith(suffix)`: the suffix fits and the text's last characters are the suffix |
| Text.SplitOnce | scripts/collect_plate_formats.py:161 | `split("\n", 1)` has no second part exactly when there is no newline; otherwise the text is head, newline, tail, and the head holds no newline |
| Text.Upper | scripts/collect_plate_formats.py:203 | `upper()` leaves no ASCII lower-case letter and never shortens the text |
| Text.UpperFixedPoint | scripts/collect_plate_formats.py:203 | `upper()` leaves a string unchanged exactly when it has no character that upper-casing raises |
| Text.UpperIgnoresAsciiCase | scripts/collect_plate_formats.py:203 | strings that agree up to ASCII case upper-case to the same string |
| Fetcher.ArticleTitle | scripts/collect_plate_formats.py:118 | the requested title is the fixed prefix followed by the country's suffix |
| Fetcher.TitleRoundTrip | scripts/collect_plate_formats.py:118 | reading the suffix back out of a title inverts title construction, in both directions |
| Fetcher.TitleInjective | scripts/collect_plate_formats.py:118 | two suffixes give the same title exactly when they are equal |
| Extractor.Truncate | scripts/collect_plate_formats.py:142-144 | text of at most 80000 characters is unchanged; longer text becomes its first 80000 characters followed by the marker, so the result is at most 80000 plus the marker's length |
| Extractor.TruncateUnchanged | scripts/collect_plate_formats.py:142-144 | truncation leaves a text alone exactly when it is within budget or already is its first 80000 characters plus the marker |
| Extractor.CleanReply | scripts/collect_plate_formats.py:157-164 | a stripped reply that does not start with a fence is passed on unchanged; the clean-up fails exactly when the stripped reply starts with a fence and has no newline; what it passes on has no outer whitespace |
| Extractor.Unfence | scripts/collect_plate_formats.py:160-164 | fence removal on a stripped reply: no fence, no change; fails exactly when a fenced reply has no newline; the result is stripped and no longer than its input |
| Extractor.UnfenceCutsFirstLine | scripts/collect_plate_formats.py:160-164 | a fenced reply loses everything up to its first newline, then one closing fence if what is left ends with one, and is stripped again |
| Extractor.DropClosingFence | scripts/collect_plate_formats.py:162-163 | a trailing fence is cut off and nothing else: the result is a prefix that, with the fence added back, is the text |
| Extractor.FencedReplyUnwraps | scripts/collect_plate_formats.py:157-166 | a JSON text wrapped in a fence, with any whitespace around it, reaches `json.loads` exactly as the bare JSON text does |
| Extractor.UnfenceFenced | scripts/collect_plate_formats.py:160-164 | unwrapping a tagged fence around a bare body gives back the body |
| Extractor.LoneFenceFails | scripts/collect_plate_formats.py:161 | a reply that is just a fence, whatever whitespace surrounds it, is the `IndexError` case |
| Extractor.SplitAtFirst | scripts/collect_plate_formats.py:161 | `split("\n", 1)` cuts at the first newline |
| Countries.TableWellFormed | scripts/collect_plate_formats.py:37-82 | the table has 44 rows, no two share a code, and every code is two ASCII capitals |
| Countries.Find | scripts/collect_plate_formats.py:204 | `code in countries`: a row with that code is found exactly when the code is in the table |
| Countries.FindIsFirst | scripts/collect_plate_formats.py:204-210 | the row found is the earliest one with the code: any row before it has another code |
| Countries.Lookup | scripts/collect_plate_formats.py:204-210 | `countries[code]` gives the table row with that code, and none when the code is unknown |
| Countries.IsSingle | scripts/collect_plate_formats.py:202 | `if args.country:` holds exactly for a given, non-empty argument; the same test is used at lines 220 and 231 |
| Countries.Select | scripts/collect_plate_formats.py:200-210 | no (or an empty) `--country`: the whole table. Otherwise the upper-cased code is rejected exactly when it is not in the table, and a known code selects exactly one country, the row with that code |
| Countries.SelectsNamedCountry | scripts/collect_plate_formats.py:202-210 | an argument that upper-cases to a row's code selects that row and nothing else |
| Countries.SelectionIgnoresCase | scripts/collect_plate_formats.py:203 | `de`, `De` and `DE` select the same country: selection ignores ASCII case |
| Collector.Stamp | scripts/collect_plate_formats.py:258-261 | the stored entry is the reply plus `country_name`, `iso`, `wikipedia_article` and `extracted_at`, set from the table row and the clock; every other key of the reply is kept |
| Collector.Skips | scripts/collect_plate_formats.py:231 | the resume test: a country is skipped exactly when its code is already in the entries and no single country was asked for |
| Collector.Snapshot | scripts/collect_plate_formats.py:214-219 | the document written to disk: the fixed source text, the extraction model's name and the entries (the `generated_at` timestamp is left out) |
| Collector.Step | scripts/collect_plate_formats.py:229-278 | one country moves exactly one counter or crashes. A collected code on a resumed run only bumps `skipped`. The entries of other codes never change. A success outside a dry run stores a stamped entry and writes the file |
| Collector.Visit | scripts/collect_plate_formats.py:238-251 | past the skip test, `skipped` stays put and exactly one of `success` and `failed` moves unless the run crashes. Entries change only on a success outside a dry run, which stores the stamped entry and ends with a write. A dry run changes no entry |
| Collector.StepFetches | scripts/collect_plate_formats.py:238-240 | a country not skipped costs exactly one page fetch, of its own article title; a skipped one costs none |
| Collector.StepDryRun | scripts/collect_plate_formats.py:249-251 | in a dry run a country changes no entry and causes no model call or write; it succeeds exactly when its article is found |
| Collector.Judge | scripts/collect_plate_formats.py:157-166 | the handling of one reply. An API error is rejected. The null-content crash happens exactly for null content. The fence `IndexError` happens exactly when the clean-up fails. The `TypeError` of line 258 happens exactly when the cleaned text decodes to a truthy value that is not an object. An accepted reply is a non-empty JSON object decoded from the cleaned text |
| Collector.Extraction | scripts/collect_plate_formats.py:253-278 | the `try` block: one model call on the truncated article, then exactly one counter moves or the run crashes. A success means the reply was accepted, and stores exactly that reply's fields, stamped with the country's provenance and its clock reading, under the country's code; it changes no other key and writes the file last |
| Collector.Store | scripts/collect_plate_formats.py:257-269 | a success adds one to `success`, puts the reply's fields, stamped with the country's provenance and the given time, under the country's code, changes no other entry and appends one write of the whole document |
| Collector.Loop | scripts/collect_plate_formats.py:229-278 | the loop only appends effects and never lowers a counter; a loop that runs through moves the counters by exactly the number of countries it was given |
| Collector.Run | scripts/collect_plate_formats.py:184-210 | the run stops with no work done exactly when the API key is missing outside a dry run, or when a non-empty `--country` upper-cases to an unknown code (which it reports); otherwise it collects the selection |
| Collector.Collect | scripts/collect_plate_formats.py:212-284 | an unreadable stored file halts a run without `--country` before any country. A run that finishes accounts for every selected country, and outside a dry run its last effect writes the entries it ends with |
| Collector.FinalWrite | scripts/collect_plate_formats.py:280-284 | after the loop the whole entries map is written once, except in a dry run, and no entry or counter changes |
| Collector.InitialEntries | scripts/collect_plate_formats.py:214-223 | the loop starts from the stored entries on a run without `--country`; it starts from no entries with `--country`, when there is no file, or when the stored document has no `entries` member |
| RunProperties.ResumeKeepsCollected | scripts/collect_plate_formats.py:220-234 | a resumed run keeps every stored entry exactly as it was; when it finishes, `skipped` is the number of table countries already stored |
| RunProperties.CollectResumes | scripts/collect_plate_formats.py:220-234 | the same for any selection of distinct countries |
| RunProperties.LoopKeepsCollected | scripts/collect_plate_formats.py:229-234 | without `--country` the loop never replaces an entry that is already there |
| RunProperties.LoopSkipsCollected | scripts/collect_plate_formats.py:229-234 | without `--country`, `skipped` grows by exactly the number of given countries already in the entries when the loop starts |
| RunProperties.LoopSkipsStored | scripts/collect_plate_formats.py:214-234 | a loop started from the stored entries skips exactly the stored countries |
| RunProperties.LoopTouchesOnlySelected | scripts/collect_plate_formats.py:229-262 | the loop never drops a key, and only adds or replaces entries of the countries it is given |
| RunProperties.LoopStampsEntries | scripts/collect_plate_formats.py:257-262 | outside a dry run, every entry the loop adds or replaces is a stamped reply for one of its countries, with that country's name, code and article title |
| RunProperties.RunStampsEntries | scripts/collect_plate_formats.py:257-262 | every entry a run adds or replaces is a stamped reply for a table country with that code |
| RunProperties.CollectStampsEntries | scripts/collect_plate_formats.py:257-262 | the same for any selection drawn from the table |
| RunProperties.CollectStampsKey | scripts/collect_plate_formats.py:257-262 | one key at a time: an entry the collection adds or replaces is a stamped reply for a table country with that code |
| RunProperties.LoopFetches | scripts/collect_plate_formats.py:238-251 | over a loop, page fetches grow by exactly the number of successes plus failures |
| RunProperties.FullRunCoversTable | scripts/collect_plate_formats.py:225-278 | a full run that finishes accounts for all 44 countries, and fetched one page for each success and each failure |
| RunProperties.CollectFetches | scripts/collect_plate_formats.py:225-284 | a finished collection fetched one page per success and per failure |
| RunProperties.LoopDryRun | scripts/collect_plate_formats.py:249-251 | a dry-run loop leaves the entries alone and does nothing but fetch pages |
| RunProperties.LoopDryRunCrash | scripts/collect_plate_formats.py:238-251 | in a dry run the only exception the loop can meet is a failing fetch |
| RunProperties.DryRunOnlyFetches | scripts/collect_plate_formats.py:184-284 | a dry run needs no API key. It never calls the model and never writes the file. It ends with the entries it started from, and can only stop on an unknown code, an unreadable file or a failing fetch |
| RunProperties.CollectDryRun | scripts/collect_plate_formats.py:249-251 | the same for the collection itself |
| RunProperties.SingleCountryRewritesFile | scripts/collect_plate_formats.py:220 | after a finished `--country XX` run outside a dry run the file holds at most the entry for XX. That entry is present exactly when its extraction succeeded, and it is the stamped reply for XX. Nothing is skipped. The last effect is the write |
| RunProperties.SingleCountryHaltWritesNothing | scripts/collect_plate_formats.py:220-284 | a `--country` run that halts has made no file write, so the stored file stays as it was |
| RunProperties.HaltedOneWritesNothing | scripts/collect_plate_formats.py:220-284 | the same for a single-country collection |
| RunProperties.CrashedStepWritesNothing | scripts/collect_plate_formats.py:238-278 | a country whose step crashes adds no write: every crash comes before the store and its write |
| RunProperties.CollectOne | scripts/collect_plate_formats.py:229-284 | a single-country collection ends with at most that country's entry, present exactly on success |
| RunProperties.StepFromNothing | scripts/collect_plate_formats.py:229-278 | a step from no entries leaves at most its own country's entry, present exactly on success |
| RunProperties.LoopAppend | scripts/collect_plate_formats.py:229-278 | the loop over two lists one after the other is the loop over the first, then, unless it crashed, the loop over the second from where it stopped: countries are visited in the given order and a crash ends the loop |
| RunProperties.LoopStopsAtCrash | scripts/collect_plate_formats.py:229-278 | when a country's step crashes, the loop over any list containing it ends with exactly that crash, and the countries after it are never visited |
| RunProperties.LoopOfOne | scripts/collect_plate_formats.py:229 | a loop over one country is one step |
| RunProperties.SingleCountryIgnoresFile | scripts/collect_plate_formats.py:220 | with `--country`, whatever file is on disk, or none, makes no difference to the run |
| RunProperties.CollectIgnoresPrior | scripts/collect_plate_formats.py:220-223 | the same for the collection itself |
| RunProperties.LoopIgnoresPrior | scripts/collect_plate_formats.py:229-278 | the loop never reads the stored file |
| RunProperties.FetchErrorCrashesStep | scripts/collect_plate_formats.py:240 | a failing fetch crashes this country's step right after its fetch (which ends the loop, by `LoopStopsAtCrash`): no counter moves, no entry changes, no model call |
| RunProperties.MissingArticleFails | scripts/collect_plate_formats.py:240-245 | a title with no article counts as exactly one failure after its fetch, with no model call, no entry change and no write |
| RunProperties.RaisedReplyCrashesStep | scripts/collect_plate_formats.py:253-278 | a reply that raises (null content, a lone fence, a truthy non-object) crashes this country's step with that exception, after the fetch and the model call (which ends the loop, by `LoopStopsAtCrash`): no counter moves and no entry changes |
| RunProperties.LoneFenceCrashesStep | scripts/collect_plate_formats.py:161 | a reply that is only a fence raises the `IndexError`, which no handler catches: the country is neither a success nor a failure and its step crashes, which ends the loop by `LoopStopsAtCrash` |
| RunProperties.FencedObjectIsStored | scripts/collect_plate_formats.py:157-264 | a fenced, non-empty JSON object in the reply is unwrapped, stamped and stored under the country's code, and counts as one success |
| RunProperties.JudgeFencedObject | scripts/collect_plate_formats.py:157-166 | a fenced non-empty JSON object is accepted with exactly its fields |
| RunProperties.JudgeAccepts | scripts/collect_plate_formats.py:257 | a cleaned reply that decodes to a non-empty object is accepted |
| RunProperties.AcceptedReplyIsStored | scripts/collect_plate_formats.py:257-264 | an accepted reply ends the visit with the stamped entry stored and one more success |
| RunProperties.JudgeRejects | scripts/collect_plate_formats.py:257-278 | a reply counts as a failure exactly when it is an API error, undecodable JSON, or a falsy JSON value |
| RunProperties.RejectedReplyFails | scripts/collect_plate_formats.py:270-278 | a rejected reply ends the visit with one more failure and no entry changed |
| RunProperties.UndecodableReplyFails | scripts/collect_plate_formats.py:273-275 | a reply that does not decode as JSON counts as one failure and stores nothing |

## Left out

- HTTP:
  - the session;
  - the one-second delay;
  - the 429 retry with `Retry-After`;
  - `raise_for_status`;
  - the navigation through `data["parse"]["wikitext"]["*"]`.

  Each title's outcome is an input of three cases: the article, no article, or an error that is raised.
- The OpenAI client, the request parameters and the prompt template, which are foreign calls and fixed text. The reply is an input that depends on the country name and the truncated article.
- `json.loads` and `json.load` of the stored file, which are foreign code.
  - `json.loads` is an input function.
  - The stored file is summarised as: absent, not JSON, or a document with or without an `entries` member.
  - A stored document that is not an object, or whose `entries` is not an object, is not modelled.
- JSON numbers are reals. Python's `NaN` and `Infinity` literals are not modelled.
- The timestamps, because clock reads are nondeterministic:
  - `generated_at` is left out of the written document;
  - `extracted_at` comes from an input clock, read once per country.
- `json.dump` formatting (indent, `ensure_ascii=False`, key order). A write is recorded as the document it writes.
- Failures of the file system (`mkdir`, opening or writing the file).
- `--output-dir`, the environment lookup and console output, which are I/O plumbing. Only whether the key is set and non-empty is an input. The title printed at line 239 is printed, not used.
- Text.Upper: covers ASCII and the characters whose Python upper-case form is all ASCII (ß, ı, ſ and the ligatures U+FB00 to U+FB06); it leaves every other character unchanged. Whether a code is in the table does not change, because every table code is two ASCII capitals. Only the text of the unknown-code message can differ.


=== FILE: collector.dfy ===
/** The batch loop of `main`: a fold over the selected countries that threads the entries
    map and the success / failed / skipped counters. The network, the language model,
    `json.loads` and the clock are inputs (a World); what the loop does to the outside is
    recorded as a sequence of effects. */
module Collector {
  import opened Wrappers
  import opened Json
  import opened Text
  import opened Fetcher
  import opened Extractor
  import opened Countries

  /** What the wiki API returned for one page title. */
  datatype Fetched =
    | Article(wikitext: string)  // a `parse.wikitext.*` member
    | Missing                    // an `error` member, or no wikitext: `None`
    | HttpError                  // a failing status after the one 429 retry, or a transport error: raised

  /** What the chat-completion call returned. */
  datatype Completion =
    | Reply(content: Option<string>)  // `choices[0].message.content`, which may be null
    | ApiError                        // `openai.APIError` raised

  /** Everything a run observes from outside. */
  datatype World = World(
    fetch: string -> Fetched,                // page title -> wiki API outcome
    complete: (string, string) -> Completion, // (country name, article text in the prompt) -> reply
    loads: string -> Option<Value>,          // `json.loads`; None is JSONDecodeError
    clock: string -> string)                 // ISO code -> the `extracted_at` timestamp of its extraction

  /** The dataset file as found at start-up. */
  datatype PriorFile =
    | NoFile
    | Unreadable                                   // `json.load` raises
    | Stored(entries: Option<map<string, Value>>)  // None: the document has no `entries` member

  /** The command line and environment: `--dry-run`, `--country`, whether the API key is
      set and non-empty, and the file already on disk. */
  datatype Options = Options(dryRun: bool, country: Option<string>, apiKeySet: bool, prior: PriorFile)

  const DatasetSource: string := "Wikipedia (per-country vehicle registration plate articles)"

  /** The persisted document, less its `generated_at` timestamp. */
  datatype Document = Document(source: string, extractionModel: string, entries: map<string, Value>)

  /** The document a write puts on disk for the given entries. */
  function Snapshot(entries: map<string, Value>): Document {
    Document(DatasetSource, ExtractionModel, entries)
  }

  /** An interaction with the outside world. */
  datatype Effect =
    | Fetch(title: string)
    | Extract(countryName: string, wikitext: string)
    | Write(doc: Document)

  /** The loop state: the entries map, the three counters, and the effects so far. */
  datatype Progress = Progress(
    entries: map<string, Value>,
    success: nat,
    failed: nat,
    skipped: nat,
    effects: seq<Effect>)

  function Start(entries: map<string, Value>): Progress {
    Progress(entries, 0, 0, 0, [])
  }

  /** The exceptions no handler catches: each ends the whole run. */
  datatype Crash =
    | LoadError            // the existing file is not JSON
    | FetchError           // raise_for_status or the transport, outside the try
    | NullContent          // `.strip()` on a null reply
    | FenceIndexError      // `split("\n", 1)[1]` on a one-line fenced reply: IndexError
    | NotAnObject          // item assignment on a truthy non-dict JSON value: TypeError

  /** Where one country, or a run of countries, leaves the loop. */
  datatype Outcome = Continue(p: Progress) | Crashed(p: Progress, crash: Crash)

  /** The two early returns of `main`, before any country is processed. */
  datatype Abort = MissingApiKey | UnknownCountry(code: string)

  datatype RunResult = Aborted(reason: Abort) | Halted(p: Progress, crash: Crash) | Finished(p: Progress)

  /** The keys the collector writes into every extracted entry. */
  const ProvenanceKeys: set<string> := {"country_name", "iso", "wikipedia_article", "extracted_at"}

  /** An entry carries the table's name, code and article title for `c`, and a timestamp. */
  predicate Stamped(e: map<string, Value>, c: Country) {
    && "country_name" in e && e["country_name"] == JStr(c.name)
    && "iso" in e && e["iso"] == JStr(c.iso)
    && "wikipedia_article" in e && e["wikipedia_article"] == JStr(ArticleTitle(c.suffix))
    && "extracted_at" in e && e["extracted_at"].JStr?
  }

  predicate EntryFor(v: Value, c: Country) {
    v.JObj? && Stamped(v.fields, c)
  }

  /** The enrichment of a successful reply before it is stored. */
  function Stamp(reply: map<string, Value>, c: Country, at: string): (e: map<string, Value>)
    ensures e.Keys == reply.Keys + ProvenanceKeys
    ensures Stamped(e, c) && e["extracted_at"] == JStr(at)
    ensures forall k :: k in reply && k !in ProvenanceKeys ==> e[k] == reply[k]
  {
    reply["country_name" := JStr(c.name)]
         ["iso" := JStr(c.iso)]
         ["wikipedia_article" := JStr(ArticleTitle(c.suffix))]
         ["extracted_at" := JStr(at)]
  }

  function Tally(p: Progress): nat {
    p.success + p.failed + p.skipped
  }

  /** `q` follows `p`: effects are only appended and no counter goes down. */
  predicate Advances(p: Progress, q: Progress) {
    p.effects <= q.effects && p.success <= q.success && p.failed <= q.failed && p.skipped <= q.skipped
  }

  /** The resume rule: a collected code is skipped, unless a single country was asked for. */
  predicate Skips(opts: Options, p: Progress, c: Country) {
    c.iso in p.entries && !IsSingle(opts.country)
  }

  /** Number of page fetches among the effects. */
  function Fetches(es: seq<Effect>): nat {
    if |es| == 0 then 0 else Fetches(es[..|es| - 1]) + (if es[|es| - 1].Fetch? then 1 else 0)
  }

  lemma FetchesAppend(es: seq<Effect>, e: Effect)
    ensures Fetches(es + [e]) == Fetches(es) + (if e.Fetch? then 1 else 0)
  {
    assert (es + [e])[..|es|] == es;
  }

  lemma UpdateKeepsOthers(m: map<string, Value>, k: string, v: Value)
    ensures m[k := v] - {k} == m - {k}
    ensures m[k := v].Keys == m.Keys + {k}
  {
  }

  /** Nothing but page fetches: no model call and no file write. */
  predicate OnlyFetches(es: seq<Effect>) {
    forall i :: 0 <= i < |es| ==> es[i].Fetch?
  }

  /** One pass of the loop body for country `c`. */
  function Step(opts: Options, w: World, p: Progress, c: Country): (r: Outcome)
    ensures Advances(p, r.p)
    ensures r.Continue? ==> Tally(r.p) == Tally(p) + 1
    ensures r.Crashed? ==> Tally(r.p) == Tally(p)
    ensures r.p.entries - {c.iso} == p.entries - {c.iso}
    ensures p.entries.Keys <= r.p.entries.Keys <= p.entries.Keys + {c.iso}
    ensures r.p.success == p.success ==> r.p.entries == p.entries
    ensures Skips(opts, p, c) ==> r == Continue(p.(skipped := p.skipped + 1))
    ensures !Skips(opts, p, c) ==> r.p.skipped == p.skipped
    ensures !opts.dryRun && r.p.success == p.success + 1 ==>
              && c.iso in r.p.entries && EntryFor(r.p.entries[c.iso], c)
              && |r.p.effects| > 0 && r.p.effects[|r.p.effects| - 1] == Write(Snapshot(r.p.entries))
  {
    if Skips(opts, p, c) then Continue(p.(skipped := p.skipped + 1))
    else Visit(opts, w, p, c)
  }

  /** The loop body past the skip test: fetch the article, then extract unless in a dry run. */
  function Visit(opts: Options, w: World, p: Progress, c: Country): (r: Outcome)
    ensures Advances(p, r.p) && r.p.skipped == p.skipped
    ensures r.Continue? ==> Tally(r.p) == Tally(p) + 1
    ensures r.Crashed? ==> Tally(r.p) == Tally(p)
    ensures r.p.success == p.success ==> r.p.entries == p.entries
    ensures r.p.success == p.success + 1 && !opts.dryRun ==>
              && c.iso in r.p.entries && EntryFor(r.p.entries[c.iso], c)
              && |r.p.effects| > 0 && r.p.effects[|r.p.effects| - 1] == Write(Snapshot(r.p.entries))
    ensures opts.dryRun ==> r.p.entries == p.entries
    ensures r.p.entries - {c.iso} == p.entries - {c.iso}
    ensures p.entries.Keys <= r.p.entries.Keys <= p.entries.Keys + {c.iso}
  {
    var title := ArticleTitle(c.suffix);
    var fetched := p.(effects := p.effects + [Fetch(title)]);
    match w.fetch(title)
    case HttpError => Crashed(fetched, FetchError)
    case Missing => Continue(fetched.(failed := fetched.failed + 1))
    case Article(wikitext) =>
      if opts.dryRun then Continue(fetched.(success := fetched.success + 1))
      else Extraction(w, fetched, c, wikitext)
  }

  /** Every country not skipped costs exactly one page fetch, of its own article title,
      and a skipped country costs none. */
  lemma StepFetches(opts: Options, w: World, p: Progress, c: Country)
    ensures var r := Step(opts, w, p, c);
      && Fetches(r.p.effects) == Fetches(p.effects) + (if Skips(opts, p, c) then 0 else 1)
      && (!Skips(opts, p, c) ==>
            |r.p.effects| > |p.effects| && r.p.effects[|p.effects|] == Fetch(ArticleTitle(c.suffix)))
  {
    if !Skips(opts, p, c) {
      FetchesAppend(p.effects, Fetch(ArticleTitle(c.suffix)));
    }
  }

  /** In a dry run a country only costs a fetch: the entries stay as they are, no model
      call or write happens, and a found article is the success. */
  lemma StepDryRun(opts: Options, w: World, p: Progress, c: Country)
    requires opts.dryRun
    ensures var r := Step(opts, w, p, c);
      && r.p.entries == p.entries
      && (OnlyFetches(p.effects) ==> OnlyFetches(r.p.effects))
      && (!Skips(opts, p, c) ==> (r.p.success == p.success + 1 <==> w.fetch(ArticleTitle(c.suffix)).Article?))
  {
  }

  /** How the `try` block treats one completion. */
  datatype Verdict =
    | Accept(fields: map<string, Value>)  // a truthy JSON object: stored, counted as success
    | Reject                              // APIError, JSONDecodeError or a falsy value: counted as failed
    | Raise(crash: Crash)                 // an exception no handler catches

  /** The reply handling of `extract_with_openai` and of the `if result:` test. */
  function Judge(w: World, reply: Completion): (v: Verdict)
    ensures reply.ApiError? ==> v == Reject
    ensures v == Raise(NullContent) <==> reply == Reply(None)
    ensures v == Raise(FenceIndexError) <==>
              reply.Reply? && reply.content.Some? && CleanReply(reply.content.value).Failure?
    ensures v.Accept? ==>
              && |v.fields| > 0 && reply.Reply? && reply.content.Some?
              && CleanReply(reply.content.value).Success?
              && w.loads(CleanReply(reply.content.value).value) == Some(JObj(v.fields))
    ensures v == Raise(NotAnObject) <==>
              && reply.Reply? && reply.content.Some? && CleanReply(reply.content.value).Success?
              && w.loads(CleanReply(reply.content.value).value).Some?
              && Truthy(w.loads(CleanReply(reply.content.value).value).value)
              && !w.loads(CleanReply(reply.content.value).value).value.JObj?
    ensures v.Raise? ==> v.crash in {NullContent, FenceIndexError, NotAnObject}
  {
    match reply
    case ApiError => Reject
    case Reply(None) => Raise(NullContent)
    case Reply(Some(content)) =>
      match CleanReply(content)
      case Failure(_) => Raise(FenceIndexError)
      case Success(text) =>
        match w.loads(text)
        case None => Reject
        case Some(v) =>
          if !Truthy(v) then Reject
          else if v.JObj? then Accept(v.fields)
          else Raise(NotAnObject)
  }

  /** The `try` block of the loop body: ask the model about the (truncated) article, then
      store a stamped entry and rewrite the file, count a failure, or crash. */
  function Extraction(w: World, p: Progress, c: Country, wikitext: string): (r: Outcome)
    ensures Advances(p, r.p) && |r.p.effects| > |p.effects|
    ensures Fetches(r.p.effects) == Fetches(p.effects)
    ensures r.p.skipped == p.skipped
    ensures r.Continue? ==> Tally(r.p) == Tally(p) + 1
    ensures r.Crashed? ==> Tally(r.p) == Tally(p)
    ensures r.p.success == p.success ==> r.p.entries == p.entries
    ensures r.p.success == p.success + 1 ==>
              && c.iso in r.p.entries && EntryFor(r.p.entries[c.iso], c)
              && r.p.entries == p.entries[c.iso := r.p.entries[c.iso]]
              && |r.p.effects| > 0 && r.p.effects[|r.p.effects| - 1] == Write(Snapshot(r.p.entries))
    ensures |r.p.effects| > |p.effects| && r.p.effects[|p.effects|] == Extract(c.name, Truncate(wikitext))
    ensures r.p.success == p.success + 1 ==>
              && Judge(w, w.complete(c.name, Truncate(wikitext))).Accept?
              && r.p.entries[c.iso] == JObj(Stamp(Judge(w, w.complete(c.name, Truncate(wikitext))).fields, c, w.clock(c.iso)))
    ensures r.p.entries - {c.iso} == p.entries - {c.iso}
    ensures p.entries.Keys <= r.p.entries.Keys <= p.entries.Keys + {c.iso}
  {
    var prompt := Truncate(wikitext);
    FetchesAppend(p.effects, Extract(c.name, prompt));
    var asked := p.(effects := p.effects + [Extract(c.name, prompt)]);
    match Judge(w, w.complete(c.name, prompt))
    case Reject => Continue(asked.(failed := asked.failed + 1))
    case Raise(e) => Crashed(asked, e)
    case Accept(fields) => Continue(Store(asked, c, fields, w.clock(c.iso)))
  }

  /** A successful extraction: the stamped reply goes in under the country's code, the
      success counter grows and the whole document is written out. */
  function Store(p: Progress, c: Country, fields: map<string, Value>, at: string): (r: Progress)
    ensures r.success == p.success + 1 && r.failed == p.failed && r.skipped == p.skipped
    ensures c.iso in r.entries && EntryFor(r.entries[c.iso], c)
    ensures r.entries[c.iso] == JObj(Stamp(fields, c, at))
    ensures r.entries == p.entries[c.iso := r.entries[c.iso]]
    ensures r.entries - {c.iso} == p.entries - {c.iso}
    ensures r.entries.Keys == p.entries.Keys + {c.iso}
    ensures r.effects == p.effects + [Write(Snapshot(r.entries))]
    ensures Fetches(r.effects) == Fetches(p.effects)
  {
    var entries := p.entries[c.iso := JObj(Stamp(fields, c, at))];
    UpdateKeepsOthers(p.entries, c.iso, JObj(Stamp(fields, c, at)));
    FetchesAppend(p.effects, Write(Snapshot(entries)));
    p.(entries := entries, success := p.success + 1, effects := p.effects + [Write(Snapshot(entries))])
  }

  /** The `for` loop over the selected countries, in order; an uncaught exception stops it. */
  function Loop(opts: Options, w: World, cs: seq<Country>, p: Progress): (r: Outcome)
    ensures Advances(p, r.p)
    ensures r.Continue? ==> Tally(r.p) == Tally(p) + |cs|
    decreases |cs|
  {
    if |cs| == 0 then Continue(p)
    else
      match Step(opts, w, p, cs[0])
      case Crashed(q, e) => Crashed(q, e)
      case Continue(q) => Loop(opts, w, cs[1..], q)
  }

  /** `main` after argument parsing: the key check and the selection, then the collection. */
  function Run(opts: Options, w: World): (r: RunResult)
    ensures r == Aborted(MissingApiKey) <==> !opts.apiKeySet && !opts.dryRun
    ensures r.Aborted? && r.reason.UnknownCountry? <==>
              && (opts.apiKeySet || opts.dryRun)
              && IsSingle(opts.country) && Upper(opts.country.value) !in Codes(Table)
    ensures r.Aborted? && r.reason.UnknownCountry? ==> r.reason.code == Upper(opts.country.value)
    ensures !r.Aborted? ==> Select(opts.country).Success? && r == Collect(opts, w, Select(opts.country).value)
  {
    if !opts.apiKeySet && !opts.dryRun then Aborted(MissingApiKey)
    else
      match Select(opts.country)
      case Failure(code) => Aborted(UnknownCountry(code))
      case Success(selected) => Collect(opts, w, selected)
  }

  /** The rest of `main`: load the stored entries unless a single country was asked for,
      run the loop, and write the file a last time unless in a dry run. */
  function Collect(opts: Options, w: World, selected: seq<Country>): (r: RunResult)
    ensures !r.Aborted?
    ensures r.Finished? ==> Tally(r.p) == |selected|
    ensures r.Finished? && !opts.dryRun ==>
              |r.p.effects| > 0 && r.p.effects[|r.p.effects| - 1] == Write(Snapshot(r.p.entries))
    ensures !IsSingle(opts.country) && opts.prior.Unreadable? ==> r == Halted(Start(map[]), LoadError)
  {
    if !IsSingle(opts.country) && opts.prior.Unreadable? then Halted(Start(map[]), LoadError)
    else
      match Loop(opts, w, selected, Start(InitialEntries(opts)))
      case Crashed(q, e) => Halted(q, e)
      case Continue(q) => Finished(FinalWrite(opts, q))
  }

  /** The write after the loop, skipped in a dry run: the whole entries map goes to disk. */
  function FinalWrite(opts: Options, q: Progress): (r: Progress)
    ensures r.entries == q.entries && Tally(r) == Tally(q)
    ensures r.success == q.success && r.failed == q.failed && r.skipped == q.skipped
    ensures opts.dryRun ==> r == q
    ensures !opts.dryRun ==> r.effects == q.effects + [Write(Snapshot(q.entries))]
  {
    if opts.dryRun then q else q.(effects := q.effects + [Write(Snapshot(q.entries))])
  }

  /** The entries the loop starts from: the stored ones on a resumed run, none otherwise. */
  function InitialEntries(opts: Options): (entries: map<string, Value>)
    ensures IsSingle(opts.country) ==> entries == map[]
    ensures !IsSingle(opts.country) && (opts.prior.NoFile? || opts.prior == Stored(None)) ==> entries == map[]
    ensures !IsSingle(opts.country) && opts.prior.Stored? && opts.prior.entries.Some? ==>
              entries == opts.prior.entries.value
  {
    if !IsSingle(opts.country) && opts.prior.Stored? then opts.prior.entries.GetOr(map[]) else map[]
  }
}

=== FILE: countries.dfy ===
/** The fixed country table and the `--country` selection at the start of `main`. */
module Countries {
  import opened Wrappers
  import opened Text

  /** One row of the table: ISO code, display name, and the suffix of its article title. */
  datatype Country = Country(iso: string, name: string, suffix: string)

  /** The countries processed, in the order a full run visits them. */
  const Table: seq<Country> := [
    Country("AL", "Albania", "Albania"),
    Country("AD", "Andorra", "Andorra"),
    Country("AM", "Armenia", "Armenia"),
    Country("AT", "Austria", "Austria"),
    Country("BY", "Belarus", "Belarus"),
    Country("BE", "Belgium", "Belgium"),
    Country("BA", "Bosnia and Herzegovina", "Bosnia_and_Herzegovina"),
    Country("BG", "Bulgaria", "Bulgaria"),
    Country("CH", "Switzerland", "Switzerland"),
    Country("CY", "Cyprus", "Cyprus"),
    Country("CZ", "Czech Republic", "the_Czech_Republic"),
    Country("DE", "Germany", "Germany"),
    Country("DK", "Denmark", "Denmark"),
    Country("EE", "Estonia", "Estonia"),
    Country("ES", "Spain", "Spain"),
    Country("FI", "Finland", "Finland"),
    Country("FR", "France", "France"),
    Country("GB", "United Kingdom", "the_United_Kingdom"),
    Country("GE", "Georgia", "Georgia_(country)"),
    Country("GR", "Greece", "Greece"),
    Country("HR", "Croatia", "Croatia"),
    Country("HU", "Hungary", "Hungary"),
    Country("IE", "Ireland", "the_Republic_of_Ireland"),
    Country("IS", "Iceland", "Iceland"),
    Country("IT", "Italy", "Italy"),
    Country("LI", "Liechtenstein", "Liechtenstein"),
    Country("LT", "Lithuania", "Lithuania"),
    Country("LU", "Luxembourg", "Luxembourg"),
    Country("LV", "Latvia", "Latvia"),
    Country("MD", "Moldova", "Moldova"),
    Country("ME", "Montenegro", "Montenegro"),
    Country("MK", "North Macedonia", "North_Macedonia"),
    Country("NL", "Netherlands", "the_Netherlands"),
    Country("NO", "Norway", "Norway"),
    Country("PL", "Poland", "Poland"),
    Country("PT", "Portugal", "Portugal"),
    Country("RO", "Romania", "Romania"),
    Country("RS", "Serbia", "Serbia"),
    Country("SE", "Sweden", "Sweden"),
    Country("SI", "Slovenia", "Slovenia"),
    Country("SK", "Slovakia", "Slovakia"),
    Country("TR", "Turkey", "Turkey"),
    Country("UA", "Ukraine", "Ukraine"),
    Country("XK", "Kosovo", "Kosovo")
  ]

  /** The ISO codes of a sequence of countries. */
  function Codes(cs: seq<Country>): set<string> {
    set c | c in cs :: c.iso
  }

  /** No two countries share an ISO code, as in a Python dict keyed by code. */
  predicate DistinctCodes(cs: seq<Country>) {
    forall i, j :: 0 <= i < j < |cs| ==> cs[i].iso != cs[j].iso
  }

  /** Every code is two ASCII capitals. */
  predicate CapitalCodes(cs: seq<Country>) {
    forall i :: 0 <= i < |cs| ==> |cs[i].iso| == 2 && IsAsciiUpper(cs[i].iso[0]) && IsAsciiUpper(cs[i].iso[1])
  }

  /** The table is a faithful dict: 44 countries, one per code, each code two capitals.
      Proved block by block: four blocks of eleven rows, each checked on its own and
      against every other block. */
  lemma TableWellFormed()
    ensures |Table| == 44
    ensures DistinctCodes(Table)
    ensures CapitalCodes(Table)
  {
    BlockWellFormed0();
    BlockWellFormed1();
    BlockWellFormed2();
    BlockWellFormed3();
    BlocksDisjoint01();
    BlocksDisjoint02();
    BlocksDisjoint03();
    BlocksDisjoint12();
    BlocksDisjoint13();
    BlocksDisjoint23();
  }

  lemma BlockWellFormed0()
    ensures forall i :: 0 <= i < 11 ==> |Table[i].iso| == 2 && IsAsciiUpper(Table[i].iso[0]) && IsAsciiUpper(Table[i].iso[1])
    ensures forall i, j :: 0 <= i < j < 11 ==> Table[i].iso != Table[j].iso
  {
    BlockCapitals0();
  }

  lemma BlockCapitals0()
    ensures forall i :: 0 <= i < 11 ==> |Table[i].iso| == 2 && IsAsciiUpper(Table[i].iso[0]) && IsAsciiUpper(Table[i].iso[1])
  {
  }

  lemma BlockWellFormed1()
    ensures forall i :: 11 <= i < 22 ==> |Table[i].iso| == 2 && IsAsciiUpper(Table[i].iso[0]) && IsAsciiUpper(Table[i].iso[1])
    ensures forall i, j :: 11 <= i < j < 22 ==> Table[i].iso != Table[j].iso
  {
    BlockCapitals1();
  }

  lemma BlockCapitals1()
    ensures forall i :: 11 <= i < 22 ==> |Table[i].iso| == 2 && IsAsciiUpper(Table[i].iso[0]) && IsAsciiUpper(Table[i].iso[1])
  {
  }

  lemma BlockWellFormed2()
    ensures forall i :: 22 <= i < 33 ==> |Table[i].iso| == 2 && IsAsciiUpper(Table[i].iso[0]) && IsAsciiUpper(Table[i].iso[1])
    ensures forall i, j :: 22 <= i < j < 33 ==> Table[i].iso != Table[j].iso
  {
    BlockCapitals2();
  }

  lemma BlockCapitals2()
    ensures forall i :: 22 <= i < 33 ==> |Table[i].iso| == 2 && IsAsciiUpper(Table[i].iso[0]) && IsAsciiUpper(Table[i].iso[1])
  {
  }

  lemma BlockWellFormed3()
    ensures forall i :: 33 <= i < 44 ==> |Table[i].iso| == 2 && IsAsciiUpper(Table[i].iso[0]) && IsAsciiUpper(Table[i].iso[1])
    ensures forall i, j :: 33 <= i < j < 44 ==> Table[i].iso != Table[j].iso
  {
    BlockCapitals3();
  }

  lemma BlockCapitals3()
    ensures forall i :: 33 <= i < 44 ==> |Table[i].iso| == 2 && IsAsciiUpper(Table[i].iso[0]) && IsAsciiUpper(Table[i].iso[1])
  {
  }

  lemma BlocksDisjoint01()
    ensures forall i, j :: 0 <= i < 11 && 11 <= j < 22 ==> Table[i].iso != Table[j].iso
  {
  }

  lemma BlocksDisjoint02()
    ensures forall i, j :: 0 <= i < 11 && 22 <= j < 33 ==> Table[i].iso != Table[j].iso
  {
  }

  lemma BlocksDisjoint03()
    ensures forall i, j :: 0 <= i < 11 && 33 <= j < 44 ==> Table[i].iso != Table[j].iso
  {
  }

  lemma BlocksDisjoint12()
    ensures forall i, j :: 11 <= i < 22 && 22 <= j < 33 ==> Table[i].iso != Table[j].iso
  {
  }

  lemma BlocksDisjoint13()
    ensures forall i, j :: 11 <= i < 22 && 33 <= j < 44 ==> Table[i].iso != Table[j].iso
  {
  }

  lemma BlocksDisjoint23()
    ensures forall i, j :: 22 <= i < 33 && 33 <= j < 44 ==> Table[i].iso != Table[j].iso
  {
  }

  lemma CodeIsCapital(c: Country)
    requires c in Table
    ensures |c.iso| == 2 && IsAsciiUpper(c.iso[0]) && IsAsciiUpper(c.iso[1])
  {
    TableWellFormed();
    var i :| 0 <= i < |Table| && Table[i] == c;
  }

  /** The first country of `cs` with the given code. */
  function Find(cs: seq<Country>, code: string): (r: Option<Country>)
    ensures r.Some? ==> r.value in cs && r.value.iso == code
    ensures r.None? <==> code !in Codes(cs)
  {
    if |cs| == 0 then None
    else if cs[0].iso == code then Some(cs[0])
    else
      assert Codes(cs) == {cs[0].iso} + Codes(cs[1..]) by {
        assert cs == [cs[0]] + cs[1..];
      }
      Find(cs[1..], code)
  }

  /** Find returns the earliest row with the code: any row before it has another code. */
  lemma {:induction false} FindIsFirst(cs: seq<Country>, code: string, i: int)
    requires 0 <= i < |cs| && cs[i].iso == code
    requires forall j :: 0 <= j < i ==> cs[j].iso != code
    ensures Find(cs, code) == Some(cs[i])
  {
    if i > 0 {
      assert forall j :: 0 <= j < i - 1 ==> cs[1..][j].iso != code by {
        forall j | 0 <= j < i - 1 ensures cs[1..][j].iso != code {
          assert cs[1..][j] == cs[j + 1];
        }
      }
      FindIsFirst(cs[1..], code, i - 1);
    }
  }

  /** `code in countries` followed by `countries[code]`, on the table. */
  function Lookup(code: string): (r: Option<Country>)
    ensures r.Some? ==> r.value in Table && r.value.iso == code
    ensures r.None? <==> code !in Codes(Table)
  {
    Find(Table, code)
  }

  /** Python's `if args.country:` — an absent or empty `--country` means a full run. */
  predicate IsSingle(arg: Option<string>) {
    arg.Some? && |arg.value| > 0
  }

  /** The countries a run processes, in order; an unknown code, upper-cased, is the error. */
  function Select(arg: Option<string>): (r: Result<seq<Country>, string>)
    ensures !IsSingle(arg) ==> r == Success(Table)
    ensures IsSingle(arg) ==> (r.Failure? <==> Upper(arg.value) !in Codes(Table))
    ensures r.Failure? ==> IsSingle(arg) && r.error == Upper(arg.value)
    ensures IsSingle(arg) && r.Success? ==>
              |r.value| == 1 && r.value[0] in Table && r.value[0].iso == Upper(arg.value)
    ensures r.Success? ==> forall c :: c in r.value ==> c in Table
  {
    if !IsSingle(arg) then Success(Table)
    else
      var code := Upper(arg.value);
      match Lookup(code)
      case None => Failure(code)
      case Some(c) => Success([c])
  }

  /** A code that names a country selects that country and nothing else. */
  lemma SelectsNamedCountry(arg: string, c: Country)
    requires c in Table && Upper(arg) == c.iso
    ensures Select(Some(arg)) == Success([c])
  {
    TableWellFormed();
    var i :| 0 <= i < |Table| && Table[i] == c;
    assert |Upper(arg)| == 2;
    assert |arg| > 0;
    var r := Select(Some(arg));
    var j :| 0 <= j < |Table| && Table[j] == r.value[0];
    assert i == j;
  }

  /** `--country de`, `--country De` and `--country DE` all select Germany: selection ignores ASCII case. */
  lemma SelectionIgnoresCase(arg: string, c: Country)
    requires c in Table
    requires |arg| == |c.iso|
    requires forall k :: 0 <= k < |arg| ==> AsciiUpper(arg[k]) == c.iso[k]
    ensures Select(Some(arg)) == Success([c])
  {
    CodeIsCapital(c);
    UpperOfCapitals(arg, c.iso);
    SelectsNamedCountry(arg, c);
  }

  lemma UpperOfCapitals(arg: string, code: string)
    requires |code| == 2 && IsAsciiUpper(code[0]) && IsAsciiUpper(code[1])
    requires |arg| == |code|
    requires forall k :: 0 <= k < |arg| ==> AsciiUpper(arg[k]) == code[k]
    ensures Upper(arg) == code
  {
    CapitalsAreFixed(code);
    assert forall k :: 0 <= k < |arg| ==> AsciiUpper(arg[k]) == AsciiUpper(code[k]);
    UpperIgnoresAsciiCase(arg, code);
  }

  lemma CapitalsAreFixed(code: string)
    requires |code| == 2 && IsAsciiUpper(code[0]) && IsAsciiUpper(code[1])
    ensures Upper(code) == code
    ensures forall k :: 0 <= k < |code| ==> AsciiUpper(code[k]) == code[k]
  {
    assert !Raises(code[0]);
    assert !Raises(code[1]);
    UpperFixedPoint(code);
  }
}

=== FILE: extractor.dfy ===
/** The text handling of `extract_with_openai`: the article budget before the prompt is built,
    and the clean-up of the model's reply before it is parsed as JSON. */
module Extractor {
  import opened Wrappers
  import opened Text

  /** Longest article text sent to the model unabridged. */
  const MaxChars: nat := 80000

  /** Appended after the kept part of an over-long article. */
  const TruncationMarker: string := "\n\n[... article truncated ...]"

  /** The markdown code fence a model may wrap its JSON in. */
  const Fence: string := "```"

  /** The model named in every request and recorded in the dataset. */
  const ExtractionModel: string := "gpt-4o-mini"

  /** The article text that goes into the prompt. */
  function Truncate(wikitext: string): (r: string)
    ensures |wikitext| <= MaxChars ==> r == wikitext
    ensures |r| <= MaxChars + |TruncationMarker|
    ensures |wikitext| > MaxChars ==> |r| == MaxChars + |TruncationMarker| && EndsWith(r, TruncationMarker)
    ensures r[..Min(|wikitext|, MaxChars)] == wikitext[..Min(|wikitext|, MaxChars)]
  {
    if |wikitext| > MaxChars then wikitext[..MaxChars] + TruncationMarker else wikitext
  }

  function Min(a: nat, b: nat): nat { if a <= b then a else b }

  /** Truncation leaves the text alone exactly when it is within budget or already
      ends in the marker at the cut. */
  lemma TruncateUnchanged(wikitext: string)
    ensures Truncate(wikitext) == wikitext <==>
              |wikitext| <= MaxChars || wikitext[MaxChars..] == TruncationMarker
  {
    if |wikitext| > MaxChars && wikitext[MaxChars..] == TruncationMarker {
      assert wikitext == wikitext[..MaxChars] + wikitext[MaxChars..];
    }
    if |wikitext| > MaxChars && Truncate(wikitext) == wikitext {
      assert wikitext[MaxChars..] == Truncate(wikitext)[MaxChars..];
    }
  }

  /** Why a reply could not be turned into JSON text: a fenced reply whose first line is all
      there is, so `split("\n", 1)[1]` raises IndexError. */
  datatype FenceError = FenceWithoutNewline

  /** The reply text `json.loads` is given: stripped, and unwrapped from a code fence when it
      starts with one. */
  function CleanReply(content: string): (r: Result<string, FenceError>)
    ensures !(Fence <= Strip(content)) ==> r == Success(Strip(content))
    ensures r.Failure? <==> Fence <= Strip(content) && '\n' !in Strip(content)
    ensures r.Success? ==> Bare(r.value) && |r.value| <= |Strip(content)|
  {
    Unfence(Strip(content))
  }

  /** A stripped reply that starts with a fence loses its first line, then one closing
      fence if present, and is stripped again. */
  function Unfence(text: string): (r: Result<string, FenceError>)
    requires Bare(text)
    ensures !(Fence <= text) ==> r == Success(text)
    ensures r.Failure? <==> Fence <= text && '\n' !in text
    ensures r.Success? ==> Bare(r.value) && |r.value| <= |text|
  {
    if !(Fence <= text) then Success(text)
    else
      var parts := SplitOnce(text, '\n');
      if parts.None? then Failure(FenceWithoutNewline)
      else
        var rest := parts.value.1;
        assert |rest| < |text|;
        Success(Strip(DropClosingFence(rest)))
  }

  /** `text[:-3]` when the text ends with a fence, else the text itself. */
  function DropClosingFence(text: string): (r: string)
    ensures |r| <= |text| && r == text[..|r|]
    ensures EndsWith(text, Fence) ==> r + Fence == text
    ensures !EndsWith(text, Fence) ==> r == text
  {
    if EndsWith(text, Fence) then text[..|text| - |Fence|] else text
  }

  /** A JSON text as a model may wrap it: a fence with a language tag on the first line,
      the text, and a closing fence on a line of its own. */
  function Fenced(tag: string, body: string): string {
    Fence + tag + "\n" + body + "\n" + Fence
  }

  /** A fenced JSON text, with any whitespace around it, reaches `json.loads` exactly as
      the bare JSON text would. */
  lemma FencedReplyUnwraps(tag: string, body: string, w1: string, w2: string)
    requires '\n' !in tag
    requires Bare(body) && !(Fence <= body)
    requires AllSpace(w1) && AllSpace(w2)
    ensures CleanReply(w1 + Fenced(tag, body) + w2) == Success(body)
    ensures CleanReply(body) == Success(body)
  {
    var fenced := Fenced(tag, body);
    UnfenceFenced(tag, body);
    StripPadded(w1, fenced, w2);
    assert CleanReply(w1 + fenced + w2) == Unfence(fenced);
    StripBare(body);
  }

  lemma UnfenceFenced(tag: string, body: string)
    requires '\n' !in tag
    requires Bare(body)
    ensures Bare(Fenced(tag, body))
    ensures Unfence(Fenced(tag, body)) == Success(body)
  {
    var head := Fence + tag;
    var rest := body + "\n" + Fence;
    FencedParts(tag, body);
    SplitAtFirst(head, '\n', rest);
    ClosingFence(body);
    assert AllSpace("\n");
    assert [] + body + "\n" == body + "\n";
    StripPadded([], body, "\n");
  }

  /** A fenced block is its opening line, a newline, and the rest; it starts and ends
      with a backtick. */
  lemma FencedParts(tag: string, body: string)
    requires '\n' !in tag
    ensures var fenced := Fenced(tag, body);
      && fenced == (Fence + tag) + ['\n'] + (body + "\n" + Fence)
      && Bare(fenced) && Fence <= fenced && '\n' !in Fence + tag
  {
    var fenced := Fenced(tag, body);
    var head := Fence + tag;
    assert fenced[0] == '`';
    assert fenced[|fenced| - 1] == '`';
    assert Fence <= fenced by {
      assert fenced[..|Fence|] == Fence;
    }
    assert '\n' !in head by {
      assert forall k :: 0 <= k < |head| ==> head[k] == if k < 3 then '`' else tag[k - 3];
    }
  }

  /** What follows the opening line ends with the closing fence, and dropping it leaves
      the body and its newline. */
  lemma ClosingFence(body: string)
    ensures var rest := body + "\n" + Fence;
      EndsWith(rest, Fence) && rest[..|rest| - |Fence|] == body + "\n"
  {
    var rest := body + "\n" + Fence;
    assert rest[|rest| - |Fence|..] == Fence;
  }

  /** A fenced reply loses everything up to its first newline, then one closing fence
      when what is left ends with one, and is stripped again. */
  lemma UnfenceCutsFirstLine(head: string, rest: string)
    requires Fence <= head && '\n' !in head
    requires Bare(head + "\n" + rest)
    ensures Unfence(head + "\n" + rest) == Success(Strip(DropClosingFence(rest)))
  {
    var text := head + "\n" + rest;
    assert Fence <= text by {
      PrefixKept(Fence, head, "\n" + rest);
      assert text == head + ("\n" + rest);
    }
    SplitAtFirst(head, '\n', rest);
  }

  lemma PrefixKept(p: string, a: string, b: string)
    requires p <= a
    ensures p <= a + b
  {
    assert (a + b)[..|p|] == a[..|p|];
  }

  /** split(sep, 1) cuts at the first separator. */
  lemma SplitAtFirst(head: string, sep: char, rest: string)
    requires sep !in head
    ensures SplitOnce(head + [sep] + rest, sep) == Some((head, rest))
  {
    var s := head + [sep] + rest;
    assert sep in s by { assert s[|head|] == sep; }
    var r := SplitOnce(s, sep);
    var h := r.value.0;
    var t := r.value.1;
    assert |h| == |head| by {
      assert s[|head|] == sep;
      assert forall k :: 0 <= k < |head| ==> s[k] == head[k];
      assert forall k :: 0 <= k < |h| ==> s[k] == h[k];
      assert s[|h|] == sep;
    }
    assert h == s[..|h|] == head;
    assert t == s[|h| + 1..] == rest;
  }

  /** A reply that opens with a fence on a line of its own and nothing else is the
      IndexError case: `"```"` alone has no second line. */
  lemma LoneFenceFails(w1: string, w2: string)
    requires AllSpace(w1) && AllSpace(w2)
    ensures CleanReply(w1 + Fence + w2) == Failure(FenceWithoutNewline)
  {
    LoneFenceUnfence();
    StripPadded(w1, Fence, w2);
  }

  lemma LoneFenceUnfence()
    ensures Bare(Fence)
    ensures Unfence(Fence) == Failure(FenceWithoutNewline)
  {
    assert Fence[0] == '`' && Fence[2] == '`';
    assert '\n' !in Fence by {
      assert forall k :: 0 <= k < |Fence| ==> Fence[k] == '`';
    }
  }
}

=== FILE: fetcher.dfy ===
/** The article-title half of `fetch_article_wikitext`; the HTTP request itself is an input of the collector. */
module Fetcher {
  import opened Wrappers

  /** Every article the collector asks for is "Vehicle registration plates of <country>". */
  const TitlePrefix: string := "Vehicle_registration_plates_of_"

  /** The page title requested for a country's article suffix. */
  function ArticleTitle(suffix: string): (title: string)
    ensures TitlePrefix <= title
    ensures title[|TitlePrefix|..] == suffix
  {
    TitlePrefix + suffix
  }

  /** Reads the suffix back out of a page title; None for a title outside the family. */
  function SuffixOf(title: string): (suffix: Option<string>)
    ensures suffix.Some? <==> TitlePrefix <= title
  {
    if TitlePrefix <= title then Some(title[|TitlePrefix|..]) else None
  }

  /** SuffixOf inverts ArticleTitle, in both directions. */
  lemma TitleRoundTrip(suffix: string, title: string)
    ensures SuffixOf(ArticleTitle(suffix)) == Some(suffix)
    ensures SuffixOf(title) == Some(suffix) ==> ArticleTitle(suffix) == title
  {
    if SuffixOf(title) == Some(suffix) {
      assert title == title[..|TitlePrefix|] + title[|TitlePrefix|..];
    }
  }

  /** Distinct suffixes never ask for the same page. */
  lemma TitleInjective(a: string, b: string)
    ensures ArticleTitle(a) == ArticleTitle(b) <==> a == b
  {
    if ArticleTitle(a) == ArticleTitle(b) {
      assert a == ArticleTitle(a)[|TitlePrefix|..];
    }
  }
}

=== FILE: json.dfy ===
/** The JSON values a model reply or a stored dataset can hold, and Python's truthiness of them. */
module Json {

  /** A decoded JSON document. Numbers are reals: NaN and infinities are not modelled. */
  datatype Value =
    | JNull
    | JBool(b: bool)
    | JNum(n: real)
    | JStr(s: string)
    | JArr(items: seq<Value>)
    | JObj(fields: map<string, Value>)

  /** Python's `bool(v)` for the value `json.loads` returns: null, false, zero and empty containers are falsy. */
  predicate Truthy(v: Value) {
    match v
    case JNull => false
    case JBool(b) => b
    case JNum(n) => n != 0.0
    case JStr(s) => |s| > 0
    case JArr(items) => |items| > 0
    case JObj(fields) => |fields| > 0
  }
}

=== FILE: run_properties.dfy ===
/** What a whole run of the collector guarantees: the resume rule, the dry run, the
    single-country mode, the counters, and how model replies reach the dataset. */
module RunProperties {
  import opened Wrappers
  import opened Json
  import opened Text
  import opened Fetcher
  import opened Extractor
  import opened Countries
  import opened Collector

  /** Key `k` is new in `after`, or holds another value than in `before`. */
  predicate Changed(before: map<string, Value>, after: map<string, Value>, k: string) {
    k in after && (k !in before || after[k] != before[k])
  }

  /** Every entry of `before` is still in `after`, with the same value. */
  predicate Keeps(before: map<string, Value>, after: map<string, Value>) {
    forall k :: k in before ==> k in after && after[k] == before[k]
  }

  /** `v` is the stamped entry of some country of `cs` whose code is `k`. */
  predicate StampedFor(cs: seq<Country>, k: string, v: Value) {
    exists c :: c in cs && c.iso == k && EntryFor(v, c)
  }

  /** How many of `cs` have their code among `keys`. */
  function Collected(cs: seq<Country>, keys: set<string>): nat {
    if |cs| == 0 then 0 else (if cs[0].iso in keys then 1 else 0) + Collected(cs[1..], keys)
  }

  lemma {:induction false} CollectedAgree(cs: seq<Country>, a: set<string>, b: set<string>)
    requires forall i :: 0 <= i < |cs| ==> (cs[i].iso in a <==> cs[i].iso in b)
    ensures Collected(cs, a) == Collected(cs, b)
    decreases |cs|
  {
    if |cs| > 0 {
      assert cs[0].iso in a <==> cs[0].iso in b;
      forall i | 0 <= i < |cs[1..]| ensures cs[1..][i].iso in a <==> cs[1..][i].iso in b {
        assert cs[1..][i] == cs[i + 1];
      }
      CollectedAgree(cs[1..], a, b);
    }
  }

  lemma DistinctTail(cs: seq<Country>)
    requires |cs| > 0 && DistinctCodes(cs)
    ensures DistinctCodes(cs[1..])
    ensures forall i :: 0 <= i < |cs[1..]| ==> cs[1..][i].iso != cs[0].iso
  {
    forall i | 0 <= i < |cs[1..]| ensures cs[1..][i].iso != cs[0].iso {
      assert cs[1..][i] == cs[i + 1];
    }
  }

  /** Where a collection can end: finished after a loop that ran through, halted by the
      stored file, or halted where the loop crashed. */
  lemma CollectCases(opts: Options, w: World, selected: seq<Country>)
    ensures var l := Loop(opts, w, selected, Start(InitialEntries(opts)));
      var r := Collect(opts, w, selected);
      && (r.Finished? ==> l.Continue? && r.p == FinalWrite(opts, l.p))
      && (r.Halted? ==> r == Halted(Start(map[]), LoadError) || (l.Crashed? && r == Halted(l.p, l.crash)))
  {
  }

  /** On a resumed run the loop never touches an entry that was already there. */
  lemma {:induction false} LoopKeepsCollected(opts: Options, w: World, cs: seq<Country>, p: Progress)
    requires !IsSingle(opts.country)
    ensures var r := Loop(opts, w, cs, p);
      Keeps(p.entries, r.p.entries)
    decreases |cs|
  {
    if |cs| > 0 {
      var s := Step(opts, w, p, cs[0]);
      assert Loop(opts, w, cs, p) == if s.Crashed? then s else Loop(opts, w, cs[1..], s.p);
      forall k | k in p.entries ensures k in s.p.entries && s.p.entries[k] == p.entries[k] {
        if !Skips(opts, p, cs[0]) {
          assert k != cs[0].iso;
          assert k in p.entries - {cs[0].iso};
        }
      }
      if s.Continue? {
        LoopKeepsCollected(opts, w, cs[1..], s.p);
      }
    }
  }

  /** The loop only adds or replaces entries of the countries it is given. */
  lemma {:induction false} LoopTouchesOnlySelected(opts: Options, w: World, cs: seq<Country>, p: Progress)
    ensures var r := Loop(opts, w, cs, p);
      && p.entries.Keys <= r.p.entries.Keys <= p.entries.Keys + Codes(cs)
      && forall k :: Changed(p.entries, r.p.entries, k) ==> k in Codes(cs)
    decreases |cs|
  {
    if |cs| > 0 {
      var s := Step(opts, w, p, cs[0]);
      assert Loop(opts, w, cs, p) == if s.Crashed? then s else Loop(opts, w, cs[1..], s.p);
      CodesCons(cs);
      forall k | Changed(p.entries, s.p.entries, k) ensures k == cs[0].iso {
      }
      if s.Continue? {
        var r := Loop(opts, w, cs[1..], s.p);
        LoopTouchesOnlySelected(opts, w, cs[1..], s.p);
        forall k | Changed(p.entries, r.p.entries, k) ensures k in Codes(cs) {
          if !Changed(s.p.entries, r.p.entries, k) {
            assert Changed(p.entries, s.p.entries, k);
          }
        }
      }
    }
  }

  lemma CodesCons(cs: seq<Country>)
    requires |cs| > 0
    ensures Codes(cs) == {cs[0].iso} + Codes(cs[1..])
  {
    forall k | k in Codes(cs) ensures k in {cs[0].iso} + Codes(cs[1..]) {
      var c :| c in cs && c.iso == k;
      if c != cs[0] {
        var i :| 0 <= i < |cs| && cs[i] == c;
        assert cs[1..][i - 1] == c;
      }
    }
    forall k | k in Codes(cs[1..]) ensures k in Codes(cs) {
      var c :| c in cs[1..] && c.iso == k;
      assert c in cs;
    }
  }

  /** Outside a dry run every entry the loop adds or replaces is a stamped model reply for
      one of its countries: that country's name, code and article title, and a timestamp. */
  lemma {:induction false} LoopStampsEntries(opts: Options, w: World, cs: seq<Country>, p: Progress, k: string)
    requires !opts.dryRun
    ensures var r := Loop(opts, w, cs, p);
      Changed(p.entries, r.p.entries, k) ==> StampedFor(cs, k, r.p.entries[k])
    decreases |cs|
  {
    if |cs| > 0 {
      var s := Step(opts, w, p, cs[0]);
      assert Loop(opts, w, cs, p) == if s.Crashed? then s else Loop(opts, w, cs[1..], s.p);
      assert cs[0] in cs;
      if s.Continue? {
        var r := Loop(opts, w, cs[1..], s.p);
        LoopStampsEntries(opts, w, cs[1..], s.p, k);
        if Changed(s.p.entries, r.p.entries, k) {
          var c :| c in cs[1..] && c.iso == k && EntryFor(r.p.entries[k], c);
          assert c in cs;
        }
      }
    }
  }

  /** On a resumed run over distinct codes, the skip counter grows by the number of
      countries already in the entries when the loop starts. */
  lemma {:induction false} LoopSkipsCollected(opts: Options, w: World, cs: seq<Country>, p: Progress)
    requires !IsSingle(opts.country) && DistinctCodes(cs)
    ensures var r := Loop(opts, w, cs, p);
      r.Continue? ==> r.p.skipped == p.skipped + Collected(cs, p.entries.Keys)
    decreases |cs|
  {
    if |cs| > 0 {
      var s := Step(opts, w, p, cs[0]);
      assert Loop(opts, w, cs, p) == if s.Crashed? then s else Loop(opts, w, cs[1..], s.p);
      if s.Continue? {
        DistinctTail(cs);
        LoopSkipsCollected(opts, w, cs[1..], s.p);
        forall i | 0 <= i < |cs[1..]|
          ensures cs[1..][i].iso in s.p.entries.Keys <==> cs[1..][i].iso in p.entries.Keys
        {
          var k := cs[1..][i].iso;
          assert k != cs[0].iso;
          assert k in s.p.entries <==> k in s.p.entries - {cs[0].iso};
          assert k in p.entries <==> k in p.entries - {cs[0].iso};
        }
        CollectedAgree(cs[1..], s.p.entries.Keys, p.entries.Keys);
      }
    }
  }

  /** Each country that is counted as a success or a failure cost exactly one page fetch;
      skipped countries cost none. */
  lemma {:induction false} LoopFetches(opts: Options, w: World, cs: seq<Country>, p: Progress)
    ensures var r := Loop(opts, w, cs, p);
      r.Continue? ==>
        Fetches(r.p.effects) == Fetches(p.effects) + (r.p.success - p.success) + (r.p.failed - p.failed)
    decreases |cs|
  {
    if |cs| > 0 {
      StepFetches(opts, w, p, cs[0]);
      var s := Step(opts, w, p, cs[0]);
      assert Loop(opts, w, cs, p) == if s.Crashed? then s else Loop(opts, w, cs[1..], s.p);
      if s.Continue? {
        LoopFetches(opts, w, cs[1..], s.p);
      }
    }
  }

  /** A dry-run loop leaves the entries alone and does nothing but fetch pages. */
  lemma {:induction false} LoopDryRun(opts: Options, w: World, cs: seq<Country>, p: Progress)
    requires opts.dryRun
    ensures var r := Loop(opts, w, cs, p);
      && r.p.entries == p.entries
      && (OnlyFetches(p.effects) ==> OnlyFetches(r.p.effects))
    decreases |cs|
  {
    if |cs| > 0 {
      StepDryRun(opts, w, p, cs[0]);
      var s := Step(opts, w, p, cs[0]);
      assert Loop(opts, w, cs, p) == if s.Crashed? then s else Loop(opts, w, cs[1..], s.p);
      if s.Continue? {
        LoopDryRun(opts, w, cs[1..], s.p);
      }
    }
  }

  /** The loop reads `--dry-run` and `--country`, never the file found on disk. */
  lemma {:induction false} LoopIgnoresPrior(opts: Options, w: World, cs: seq<Country>, p: Progress, prior: PriorFile)
    ensures Loop(opts, w, cs, p) == Loop(opts.(prior := prior), w, cs, p)
    decreases |cs|
  {
    if |cs| > 0 {
      var other := opts.(prior := prior);
      assert Visit(opts, w, p, cs[0]) == Visit(other, w, p, cs[0]);
      assert Step(opts, w, p, cs[0]) == Step(other, w, p, cs[0]);
      var s := Step(opts, w, p, cs[0]);
      assert Loop(opts, w, cs, p) == if s.Crashed? then s else Loop(opts, w, cs[1..], s.p);
      if s.Continue? {
        LoopIgnoresPrior(opts, w, cs[1..], s.p, prior);
      }
    }
  }

  /** A resumed run keeps every stored entry as it was and, when it finishes, has skipped
      exactly the countries of the table that were stored. The run's result `r` is a
      parameter, not a `var` in the ensures, because that keeps the proof cheap for the solver;
      the same goes for the lemmas below that take `r`. */
  lemma ResumeKeepsCollected(opts: Options, w: World, stored: map<string, Value>, r: RunResult)
    requires !IsSingle(opts.country) && opts.prior == Stored(Some(stored))
    requires r == Run(opts, w)
    ensures !r.Aborted? ==> Keeps(stored, r.p.entries)
    ensures r.Finished? ==> r.p.skipped == Collected(Table, stored.Keys)
  {
    if opts.apiKeySet || opts.dryRun {
      assert Select(opts.country) == Success(Table);
      assert r == Collect(opts, w, Table);
      TableWellFormed();
      CollectResumes(opts, w, Table, stored, r);
    }
  }

  // `r` is the result, passed in to keep the proof cheap (see ResumeKeepsCollected).
  lemma CollectResumes(opts: Options, w: World, selected: seq<Country>, stored: map<string, Value>, r: RunResult)
    requires !IsSingle(opts.country) && opts.prior == Stored(Some(stored)) && DistinctCodes(selected)
    requires r == Collect(opts, w, selected)
    ensures Keeps(stored, r.p.entries)
    ensures r.Finished? ==> r.p.skipped == Collected(selected, stored.Keys)
  {
    assert InitialEntries(opts) == stored;
    var l := Loop(opts, w, selected, Start(stored));
    LoopKeepsCollected(opts, w, selected, Start(stored));
    LoopSkipsStored(opts, w, selected, stored);
    if l.Continue? {
      assert r == Finished(FinalWrite(opts, l.p));
    } else {
      assert r == Halted(l.p, l.crash);
    }
  }

  /** A loop started from the stored entries skips exactly the stored countries. */
  lemma LoopSkipsStored(opts: Options, w: World, cs: seq<Country>, stored: map<string, Value>)
    requires !IsSingle(opts.country) && DistinctCodes(cs)
    ensures var l := Loop(opts, w, cs, Start(stored));
      l.Continue? ==> l.p.skipped == Collected(cs, stored.Keys)
  {
    LoopSkipsCollected(opts, w, cs, Start(stored));
    assert Start(stored).skipped == 0;
    assert Start(stored).entries.Keys == stored.Keys;
  }

  /** A full run that finishes accounts for all 44 countries, and fetched once for each
      country it did not skip. */
  lemma FullRunCoversTable(opts: Options, w: World)
    requires !IsSingle(opts.country)
    ensures var r := Run(opts, w);
      r.Finished? ==> Tally(r.p) == 44 && Fetches(r.p.effects) == r.p.success + r.p.failed
  {
    TableWellFormed();
    if opts.apiKeySet || opts.dryRun {
      assert Run(opts, w) == Collect(opts, w, Table);
      CollectFetches(opts, w, Table);
    }
  }

  /** Each success and each failure of a finished collection cost one page fetch. */
  lemma CollectFetches(opts: Options, w: World, selected: seq<Country>)
    ensures var r := Collect(opts, w, selected);
      r.Finished? ==> Fetches(r.p.effects) == r.p.success + r.p.failed
  {
    var start := Start(InitialEntries(opts));
    var l := Loop(opts, w, selected, start);
    if !(!IsSingle(opts.country) && opts.prior.Unreadable?) && l.Continue? {
      assert Collect(opts, w, selected) == Finished(FinalWrite(opts, l.p));
      LoopFetches(opts, w, selected, start);
      assert Fetches(start.effects) == 0;
      if !opts.dryRun {
        FetchesAppend(l.p.effects, Write(Snapshot(l.p.entries)));
      }
    }
  }


  /** Every entry a finished or halted run adds or replaces is a stamped model reply for
      a country of the table. */
  lemma RunStampsEntries(opts: Options, w: World)
    requires !opts.dryRun
    ensures var r := Run(opts, w);
      !r.Aborted? ==> forall k :: Changed(InitialEntries(opts), r.p.entries, k) ==> StampedFor(Table, k, r.p.entries[k])
  {
    if opts.apiKeySet && Select(opts.country).Success? {
      var selected := Select(opts.country).value;
      assert Run(opts, w) == Collect(opts, w, selected);
      CollectStampsEntries(opts, w, selected);
    }
  }

  lemma CollectStampsEntries(opts: Options, w: World, selected: seq<Country>)
    requires !opts.dryRun
    requires forall c :: c in selected ==> c in Table
    ensures var r := Collect(opts, w, selected);
      forall k :: Changed(InitialEntries(opts), r.p.entries, k) ==> StampedFor(Table, k, r.p.entries[k])
  {
    var r := Collect(opts, w, selected);
    forall k | Changed(InitialEntries(opts), r.p.entries, k) ensures StampedFor(Table, k, r.p.entries[k]) {
      CollectStampsKey(opts, w, selected, r, k);
    }
  }

  // `r` is the result, passed in to keep the proof cheap (see ResumeKeepsCollected).
  lemma CollectStampsKey(opts: Options, w: World, selected: seq<Country>, r: RunResult, k: string)
    requires !opts.dryRun
    requires forall c :: c in selected ==> c in Table
    requires r == Collect(opts, w, selected)
    requires Changed(InitialEntries(opts), r.p.entries, k)
    ensures StampedFor(Table, k, r.p.entries[k])
  {
    if !IsSingle(opts.country) && opts.prior.Unreadable? {
      // the run halts at the load, with no entries, so none can have changed
      assert false;
    }
    var start := Start(InitialEntries(opts));
    var l := Loop(opts, w, selected, start);
    assert r.p.entries == l.p.entries by {
      CollectCases(opts, w, selected);
    }
    LoopStampsEntries(opts, w, selected, start, k);
    var c :| c in selected && c.iso == k && EntryFor(l.p.entries[k], c);
  }

  /** A dry run never calls the model, never writes the file and changes no entry; it can
      only stop early on an unknown code, an unreadable file or a failing fetch. */
  lemma DryRunOnlyFetches(opts: Options, w: World)
    requires opts.dryRun
    ensures var r := Run(opts, w);
      && (r.Aborted? ==> r.reason.UnknownCountry?)
      && (r.Halted? ==> OnlyFetches(r.p.effects) && r.crash in {LoadError, FetchError})
      && (r.Finished? ==> OnlyFetches(r.p.effects) && r.p.entries == InitialEntries(opts))
  {
    if Select(opts.country).Success? {
      var selected := Select(opts.country).value;
      assert Run(opts, w) == Collect(opts, w, selected);
      CollectDryRun(opts, w, selected);
    }
  }

  lemma CollectDryRun(opts: Options, w: World, selected: seq<Country>)
    requires opts.dryRun
    ensures var r := Collect(opts, w, selected);
      && (r.Halted? ==> OnlyFetches(r.p.effects) && r.crash in {LoadError, FetchError})
      && (r.Finished? ==> OnlyFetches(r.p.effects) && r.p.entries == InitialEntries(opts))
  {
    var start := Start(InitialEntries(opts));
    CollectCases(opts, w, selected);
    LoopDryRun(opts, w, selected, start);
    LoopDryRunCrash(opts, w, selected, start);
  }

  /** With no model calls, the only exception the loop can meet is a failing fetch. */
  lemma {:induction false} LoopDryRunCrash(opts: Options, w: World, cs: seq<Country>, p: Progress)
    requires opts.dryRun
    ensures var r := Loop(opts, w, cs, p);
      r.Crashed? ==> r.crash == FetchError
    decreases |cs|
  {
    if |cs| > 0 {
      var s := Step(opts, w, p, cs[0]);
      assert Loop(opts, w, cs, p) == if s.Crashed? then s else Loop(opts, w, cs[1..], s.p);
      if s.Continue? {
        LoopDryRunCrash(opts, w, cs[1..], s.p);
      }
    }
  }

  /** `--country XX` ignores the stored file and then overwrites it: the document it
      writes last holds at most the entry for XX, which is there exactly when its
      extraction succeeded, and nothing is skipped. `r` is the run's result, passed in to
      keep the proof cheap. */
  lemma SingleCountryRewritesFile(opts: Options, w: World, r: RunResult)
    requires IsSingle(opts.country) && !opts.dryRun
    requires r == Run(opts, w)
    ensures var code := Upper(opts.country.value);
      r.Finished? ==>
        && code in Codes(Table)
        && r.p.entries.Keys <= {code}
        && (r.p.success == 1 <==> code in r.p.entries)
        && (code in r.p.entries ==> EntryFor(r.p.entries[code], Lookup(code).value))
        && r.p.skipped == 0
        && |r.p.effects| > 0 && r.p.effects[|r.p.effects| - 1] == Write(Snapshot(r.p.entries))
  {
    if opts.apiKeySet && Select(opts.country).Success? {
      var selected := Select(opts.country).value;
      var c := selected[0];
      assert selected == [c];
      assert c == Lookup(c.iso).value;
      assert r == Collect(opts, w, [c]);
      CollectOne(opts, w, c, r);
    }
  }

  /** No file write among the effects. */
  predicate NoWrites(es: seq<Effect>) {
    forall i :: 0 <= i < |es| ==> !es[i].Write?
  }

  /** A `--country` run that halts has written nothing: its one country crashes before
      anything is stored, so the file on disk is left as it was. */
  lemma SingleCountryHaltWritesNothing(opts: Options, w: World, r: RunResult)
    requires IsSingle(opts.country)
    requires r == Run(opts, w)
    ensures r.Halted? ==> NoWrites(r.p.effects)
  {
    if (opts.apiKeySet || opts.dryRun) && Select(opts.country).Success? {
      var c := Select(opts.country).value[0];
      assert Select(opts.country).value == [c];
      assert r == Collect(opts, w, [c]);
      HaltedOneWritesNothing(opts, w, c, r);
    }
  }

  // `r` is the result, passed in to keep the proof cheap (see ResumeKeepsCollected).
  lemma HaltedOneWritesNothing(opts: Options, w: World, c: Country, r: RunResult)
    requires IsSingle(opts.country)
    requires r == Collect(opts, w, [c])
    ensures r.Halted? ==> NoWrites(r.p.effects)
  {
    assert InitialEntries(opts) == map[];
    CollectCases(opts, w, [c]);
    LoopOfOne(opts, w, c, Start(map[]));
    CrashedStepWritesNothing(opts, w, Start(map[]), c);
  }

  /** A step that crashes adds no write: the store is the last thing a successful
      extraction does, and nothing after it can raise. */
  lemma CrashedStepWritesNothing(opts: Options, w: World, p: Progress, c: Country)
    requires NoWrites(p.effects)
    ensures Step(opts, w, p, c).Crashed? ==> NoWrites(Step(opts, w, p, c).p.effects)
  {
    var title := ArticleTitle(c.suffix);
    if !Skips(opts, p, c) {
      var fetched := p.(effects := p.effects + [Fetch(title)]);
      assert NoWrites(fetched.effects);
      if w.fetch(title).Article? && !opts.dryRun {
        var wikitext := w.fetch(title).wikitext;
        assert Step(opts, w, p, c) == Extraction(w, fetched, c, wikitext);
        var asked := fetched.effects + [Extract(c.name, Truncate(wikitext))];
        assert NoWrites(asked);
        if Judge(w, w.complete(c.name, Truncate(wikitext))).Raise? {
          RaisedReplyCrashesStep(opts, w, p, c, wikitext);
          assert Step(opts, w, p, c).p.effects == asked;
        }
      }
    }
  }

  // `r` is the result, passed in to keep the proof cheap (see ResumeKeepsCollected).
  lemma CollectOne(opts: Options, w: World, c: Country, r: RunResult)
    requires IsSingle(opts.country) && !opts.dryRun
    requires r == Collect(opts, w, [c])
    ensures r.Finished? ==>
      && r.p.entries.Keys <= {c.iso}
      && (r.p.success == 1 <==> c.iso in r.p.entries)
      && (c.iso in r.p.entries ==> EntryFor(r.p.entries[c.iso], c))
      && r.p.skipped == 0
  {
    assert InitialEntries(opts) == map[];
    CollectCases(opts, w, [c]);
    LoopOfOne(opts, w, c, Start(map[]));
    StepFromNothing(opts, w, c);
  }

  /** The loop over `a + b` is the loop over `a` followed, unless that crashed, by the loop
      over `b` from where it stopped. With LoopOfOne this fixes the order of the visits (the
      order of the selection) and that an uncaught exception ends the loop at once. */
  lemma {:induction false} LoopAppend(opts: Options, w: World, a: seq<Country>, b: seq<Country>, p: Progress)
    ensures Loop(opts, w, a + b, p) ==
              match Loop(opts, w, a, p)
              case Crashed(q, e) => Crashed(q, e)
              case Continue(q) => Loop(opts, w, b, q)
    decreases |a|
  {
    if |a| == 0 {
      assert a + b == b;
    } else {
      assert (a + b)[0] == a[0] && (a + b)[1..] == a[1..] + b;
      match Step(opts, w, p, a[0])
      case Crashed(q, e) =>
      case Continue(q) => LoopAppend(opts, w, a[1..], b, q);
    }
  }

  /** A country whose step crashes ends the loop there: the countries after it are never
      visited, and the loop's outcome is that step's crash. */
  lemma LoopStopsAtCrash(opts: Options, w: World, a: seq<Country>, c: Country, b: seq<Country>, p: Progress)
    requires Loop(opts, w, a, p).Continue?
    requires Step(opts, w, Loop(opts, w, a, p).p, c).Crashed?
    ensures Loop(opts, w, a + [c] + b, p) == Step(opts, w, Loop(opts, w, a, p).p, c)
  {
    var q := Loop(opts, w, a, p).p;
    assert a + [c] + b == a + ([c] + b);
    LoopAppend(opts, w, a, [c] + b, p);
    LoopAppend(opts, w, [c], b, q);
    LoopOfOne(opts, w, c, q);
  }

  /** A loop over one country is one step. */
  lemma LoopOfOne(opts: Options, w: World, c: Country, p: Progress)
    ensures Loop(opts, w, [c], p) == Step(opts, w, p, c)
  {
    var s := Step(opts, w, p, c);
    assert [c][1..] == [];
    assert Loop(opts, w, [c], p) == if s.Crashed? then s else Loop(opts, w, [], s.p);
  }

  /** A step from the empty map leaves at most the entry of its own country, there
      exactly when the step succeeded. */
  lemma StepFromNothing(opts: Options, w: World, c: Country)
    requires IsSingle(opts.country) && !opts.dryRun
    ensures var s := Step(opts, w, Start(map[]), c);
      && s.p.entries.Keys <= {c.iso}
      && (s.p.success == 1 <==> c.iso in s.p.entries)
      && (c.iso in s.p.entries ==> EntryFor(s.p.entries[c.iso], c))
      && s.p.skipped == 0
  {
    var s := Step(opts, w, Start(map[]), c);
    assert s.p.entries.Keys <= {c.iso};
  }

  /** Which file is on disk makes no difference to a `--country` run. */
  lemma SingleCountryIgnoresFile(opts: Options, w: World, prior: PriorFile)
    requires IsSingle(opts.country)
    ensures Run(opts, w) == Run(opts.(prior := prior), w)
  {
    var other := opts.(prior := prior);
    if (opts.apiKeySet || opts.dryRun) && Select(opts.country).Success? {
      var selected := Select(opts.country).value;
      assert Run(opts, w) == Collect(opts, w, selected);
      assert Run(other, w) == Collect(other, w, selected);
      CollectIgnoresPrior(opts, w, selected, prior);
    }
  }

  lemma CollectIgnoresPrior(opts: Options, w: World, selected: seq<Country>, prior: PriorFile)
    requires IsSingle(opts.country)
    ensures Collect(opts, w, selected) == Collect(opts.(prior := prior), w, selected)
  {
    var other := opts.(prior := prior);
    assert InitialEntries(opts) == map[] == InitialEntries(other);
    LoopIgnoresPrior(opts, w, selected, Start(map[]), prior);
    CollectCases(opts, w, selected);
    CollectCases(other, w, selected);
  }

  /** A failing fetch (an error status after the retry, or a transport error) is raised
      outside the `try`: the run stops at this country, which counts neither as a success
      nor as a failure, and the page fetch is the last thing that happened. */
  lemma FetchErrorCrashesStep(opts: Options, w: World, p: Progress, c: Country)
    requires !Skips(opts, p, c)
    requires w.fetch(ArticleTitle(c.suffix)).HttpError?
    ensures Step(opts, w, p, c) == Crashed(p.(effects := p.effects + [Fetch(ArticleTitle(c.suffix))]), FetchError)
  {
  }

  /** A title with no article is counted as one failure, after its fetch, and nothing else
      changes: no model call, no entry, no write. */
  lemma MissingArticleFails(opts: Options, w: World, p: Progress, c: Country)
    requires !Skips(opts, p, c)
    requires w.fetch(ArticleTitle(c.suffix)).Missing?
    ensures Step(opts, w, p, c) ==
              Continue(p.(effects := p.effects + [Fetch(ArticleTitle(c.suffix))], failed := p.failed + 1))
  {
  }

  /** A reply that raises (null content, a lone fence, a truthy value that is not an
      object) stops the run at this country: no counter moves, no entry changes, and the
      model call is the last thing that happened. */
  lemma RaisedReplyCrashesStep(opts: Options, w: World, p: Progress, c: Country, wikitext: string)
    requires !opts.dryRun && !Skips(opts, p, c)
    requires w.fetch(ArticleTitle(c.suffix)) == Article(wikitext)
    requires Judge(w, w.complete(c.name, Truncate(wikitext))).Raise?
    ensures Step(opts, w, p, c) ==
              Crashed(p.(effects := p.effects + [Fetch(ArticleTitle(c.suffix)), Extract(c.name, Truncate(wikitext))]),
                      Judge(w, w.complete(c.name, Truncate(wikitext))).crash)
  {
    var fetched := p.(effects := p.effects + [Fetch(ArticleTitle(c.suffix))]);
    assert Step(opts, w, p, c) == Visit(opts, w, p, c) == Extraction(w, fetched, c, wikitext);
    assert fetched.effects + [Extract(c.name, Truncate(wikitext))]
        == p.effects + [Fetch(ArticleTitle(c.suffix)), Extract(c.name, Truncate(wikitext))];
  }

  /** A reply that is only a code fence, with no newline after it, raises IndexError in
      the fence stripping, which no handler catches: the country neither succeeds nor fails. */
  lemma LoneFenceCrashesStep(opts: Options, w: World, p: Progress, c: Country, wikitext: string, w1: string, w2: string)
    requires !opts.dryRun && !Skips(opts, p, c)
    requires w.fetch(ArticleTitle(c.suffix)) == Article(wikitext)
    requires w.complete(c.name, Truncate(wikitext)) == Reply(Some(w1 + Fence + w2))
    requires AllSpace(w1) && AllSpace(w2)
    ensures Step(opts, w, p, c).Crashed? && Step(opts, w, p, c).crash == FenceIndexError
  {
    LoneFenceFails(w1, w2);
    assert Judge(w, w.complete(c.name, Truncate(wikitext))) == Raise(FenceIndexError);
  }

  /** A fenced JSON object in the reply is unwrapped, stamped and stored under the
      country's code, and counted as a success. */
  lemma FencedObjectIsStored(opts: Options, w: World, p: Progress, c: Country, wikitext: string,
                             tag: string, body: string, w1: string, w2: string, fields: map<string, Value>)
    requires !opts.dryRun && !Skips(opts, p, c)
    requires w.fetch(ArticleTitle(c.suffix)) == Article(wikitext)
    requires w.complete(c.name, Truncate(wikitext)) == Reply(Some(w1 + Fenced(tag, body) + w2))
    requires '\n' !in tag && Bare(body) && !(Fence <= body) && AllSpace(w1) && AllSpace(w2)
    requires w.loads(body) == Some(JObj(fields)) && |fields| > 0
    ensures var r := Step(opts, w, p, c);
      && r.Continue? && r.p.success == p.success + 1 && r.p.failed == p.failed
      && r.p.entries == p.entries[c.iso := JObj(Stamp(fields, c, w.clock(c.iso)))]
  {
    JudgeFencedObject(w, tag, body, w1, w2, fields);
    AcceptedReplyIsStored(opts, w, p, c, wikitext, fields);
  }

  lemma JudgeFencedObject(w: World, tag: string, body: string, w1: string, w2: string, fields: map<string, Value>)
    requires '\n' !in tag && Bare(body) && !(Fence <= body) && AllSpace(w1) && AllSpace(w2)
    requires w.loads(body) == Some(JObj(fields)) && |fields| > 0
    ensures Judge(w, Reply(Some(w1 + Fenced(tag, body) + w2))) == Accept(fields)
  {
    FencedReplyUnwraps(tag, body, w1, w2);
    JudgeAccepts(w, w1 + Fenced(tag, body) + w2, body, fields);
  }

  lemma JudgeAccepts(w: World, content: string, text: string, fields: map<string, Value>)
    requires CleanReply(content) == Success(text)
    requires w.loads(text) == Some(JObj(fields)) && |fields| > 0
    ensures Judge(w, Reply(Some(content))) == Accept(fields)
  {
    assert Truthy(JObj(fields));
  }

  /** A reply the `try` block accepts ends the country's visit with the stamped entry
      stored, one more success, and the file rewritten. */
  lemma AcceptedReplyIsStored(opts: Options, w: World, p: Progress, c: Country, wikitext: string, fields: map<string, Value>)
    requires !opts.dryRun && !Skips(opts, p, c)
    requires w.fetch(ArticleTitle(c.suffix)) == Article(wikitext)
    requires Judge(w, w.complete(c.name, Truncate(wikitext))) == Accept(fields)
    ensures var r := Step(opts, w, p, c);
      && r.Continue? && r.p.success == p.success + 1 && r.p.failed == p.failed
      && r.p.entries == p.entries[c.iso := JObj(Stamp(fields, c, w.clock(c.iso)))]
  {
    var fetched := p.(effects := p.effects + [Fetch(ArticleTitle(c.suffix))]);
    assert Step(opts, w, p, c) == Visit(opts, w, p, c) == Extraction(w, fetched, c, wikitext);
  }

  /** The replies the `try` block counts as failures: an API error, text that does not
      decode as JSON, and a JSON value Python finds falsy. */
  lemma JudgeRejects(w: World, reply: Completion)
    ensures Judge(w, reply) == Reject <==>
              || reply.ApiError?
              || (&& reply.Reply? && reply.content.Some? && CleanReply(reply.content.value).Success?
                  && var v := w.loads(CleanReply(reply.content.value).value);
                     v.None? || !Truthy(v.value))
  {
  }

  /** A rejected reply ends the country's visit with one more failure and no entry changed. */
  lemma RejectedReplyFails(opts: Options, w: World, p: Progress, c: Country, wikitext: string)
    requires !opts.dryRun && !Skips(opts, p, c)
    requires w.fetch(ArticleTitle(c.suffix)) == Article(wikitext)
    requires Judge(w, w.complete(c.name, Truncate(wikitext))) == Reject
    ensures var r := Step(opts, w, p, c);
      && r.Continue? && r.p.failed == p.failed + 1 && r.p.success == p.success
      && r.p.skipped == p.skipped && r.p.entries == p.entries
  {
    var fetched := p.(effects := p.effects + [Fetch(ArticleTitle(c.suffix))]);
    assert Step(opts, w, p, c) == Visit(opts, w, p, c) == Extraction(w, fetched, c, wikitext);
  }

  /** A reply that does not decode as JSON is counted as a failure and stores nothing. */
  lemma UndecodableReplyFails(opts: Options, w: World, p: Progress, c: Country, wikitext: string, content: string)
    requires !opts.dryRun && !Skips(opts, p, c)
    requires w.fetch(ArticleTitle(c.suffix)) == Article(wikitext)
    requires w.complete(c.name, Truncate(wikitext)) == Reply(Some(content))
    requires CleanReply(content).Success? && w.loads(CleanReply(content).value).None?
    ensures var r := Step(opts, w, p, c);
      && r.Continue? && r.p.failed == p.failed + 1 && r.p.success == p.success
      && r.p.entries == p.entries
  {
    assert Judge(w, w.complete(c.name, Truncate(wikitext))) == Reject;
  }
}

=== FILE: text.dfy ===
/** The Python `str` operations the collector relies on, over `seq<char>`:
    `isspace`, `strip`, `startswith`/`endswith`, `split(sep, 1)` and `upper`. */
module Text {
  import opened Wrappers

  /** Python's `str.isspace()` for one character: the characters `str.strip()` removes. */
  predicate IsSpace(c: char) {
    var n := c as int;
    || (0x09 <= n <= 0x0D)
    || (0x1C <= n <= 0x20)
    || n == 0x85 || n == 0xA0 || n == 0x1680
    || (0x2000 <= n <= 0x200A)
    || n == 0x2028 || n == 0x2029 || n == 0x202F || n == 0x205F || n == 0x3000
  }

  predicate AllSpace(s: string) {
    forall k :: 0 <= k < |s| ==> IsSpace(s[k])
  }

  /** Neither end is whitespace: exactly the strings `strip()` leaves alone. */
  predicate Bare(s: string) {
    |s| == 0 || (!IsSpace(s[0]) && !IsSpace(s[|s| - 1]))
  }

  /** `s` is `r` surrounded by whitespace on both sides. */
  ghost predicate PaddedBy(s: string, r: string) {
    exists i :: 0 <= i <= |s| - |r| && AllSpace(s[..i]) && s[i..i + |r|] == r && AllSpace(s[i + |r|..])
  }

  /** Python's `str.lstrip()`. */
  function TrimStart(s: string): (r: string)
    ensures |r| <= |s| && r == s[|s| - |r|..]
    ensures AllSpace(s[..|s| - |r|])
    ensures |r| == 0 || !IsSpace(r[0])
  {
    if |s| > 0 && IsSpace(s[0]) then TrimStart(s[1..]) else s
  }

  /** Python's `str.rstrip()`. */
  function TrimEnd(s: string): (r: string)
    ensures |r| <= |s| && r == s[..|r|]
    ensures AllSpace(s[|r|..])
    ensures |r| == 0 || !IsSpace(r[|r| - 1])
  {
    if |s| > 0 && IsSpace(s[|s| - 1]) then TrimEnd(s[..|s| - 1]) else s
  }

  /** Python's `str.strip()`: what is left once whitespace is removed from both ends.
      Leading whitespace goes one character at a time, then the rest is right-stripped. */
  function Strip(s: string): (r: string)
    ensures Bare(r)
    ensures |r| <= |s|
  {
    if |s| > 0 && IsSpace(s[0]) then Strip(s[1..]) else TrimEnd(s)
  }

  /** Strip is `rstrip` after `lstrip`. */
  lemma {:induction false} StripTrims(s: string)
    ensures Strip(s) == TrimEnd(TrimStart(s))
  {
    if |s| > 0 && IsSpace(s[0]) {
      StripTrims(s[1..]);
    }
  }

  /** Strip removes whitespace and nothing else: its result is a slice of its argument
      with only whitespace on either side. */
  lemma StripRemovesOnlySpace(s: string)
    ensures PaddedBy(s, Strip(s))
  {
    StripTrims(s);
    TrimsRemoveOnlySpace(s);
  }

  lemma TrimsRemoveOnlySpace(s: string)
    ensures PaddedBy(s, TrimEnd(TrimStart(s)))
  {
    var t := TrimStart(s);
    var r := TrimEnd(t);
    var i := |s| - |t|;
    assert s[i..i + |r|] == r by {
      assert t == s[i..] && r == t[..|r|];
    }
    assert s[i + |r|..] == t[|r|..];
    PaddedByWitness(s, r, i);
  }

  lemma PaddedByWitness(s: string, r: string, i: int)
    requires 0 <= i <= |s| - |r| && AllSpace(s[..i]) && s[i..i + |r|] == r && AllSpace(s[i + |r|..])
    ensures PaddedBy(s, r)
  {
  }

  lemma {:induction false} TrimStartSkipsSpace(w: string, t: string)
    requires AllSpace(w)
    requires |t| == 0 || !IsSpace(t[0])
    ensures TrimStart(w + t) == t
  {
    if |w| > 0 {
      assert (w + t)[1..] == w[1..] + t;
      TrimStartSkipsSpace(w[1..], t);
    } else {
      assert w + t == t;
    }
  }

  lemma {:induction false} TrimEndSkipsSpace(t: string, w: string)
    requires AllSpace(w)
    requires |t| == 0 || !IsSpace(t[|t| - 1])
    ensures TrimEnd(t + w) == t
  {
    if |w| > 0 {
      assert (t + w)[..|t + w| - 1] == t + w[..|w| - 1];
      TrimEndSkipsSpace(t, w[..|w| - 1]);
    } else {
      assert t + w == t;
    }
  }

  /** Strip undoes any whitespace padding of a bare string: together with Strip's
      own contract this pins its result down uniquely. */
  lemma StripPadded(w1: string, b: string, w2: string)
    requires AllSpace(w1) && AllSpace(w2) && Bare(b)
    ensures Strip(w1 + b + w2) == b
  {
    StripTrims(w1 + b + w2);
    TrimsUndoPadding(w1, b, w2);
  }

  lemma TrimsUndoPadding(w1: string, b: string, w2: string)
    requires AllSpace(w1) && AllSpace(w2) && Bare(b)
    ensures TrimEnd(TrimStart(w1 + b + w2)) == b
  {
    if |b| == 0 {
      assert b == [];
      assert w1 + b == w1;
      AllSpaceTrims(w1, w2);
    } else {
      assert w1 + b + w2 == w1 + (b + w2);
      TrimStartSkipsSpace(w1, b + w2);
      TrimEndSkipsSpace(b, w2);
    }
  }

  /** A string of whitespace only trims to nothing. */
  lemma AllSpaceTrims(w1: string, w2: string)
    requires AllSpace(w1) && AllSpace(w2)
    ensures TrimEnd(TrimStart(w1 + w2)) == []
  {
    AllSpaceConcat(w1, w2);
    assert w1 + w2 == (w1 + w2) + [];
    TrimStartSkipsSpace(w1 + w2, []);
  }

  lemma AllSpaceConcat(a: string, b: string)
    requires AllSpace(a) && AllSpace(b)
    ensures AllSpace(a + b)
  {
    forall k | 0 <= k < |a + b| ensures IsSpace((a + b)[k]) {
      if k >= |a| {
        assert (a + b)[k] == b[k - |a|];
      }
    }
  }

  /** Strip leaves a bare string alone; in particular, stripping twice is stripping once. */
  lemma StripBare(s: string)
    ensures Bare(s) ==> Strip(s) == s
    ensures Strip(Strip(s)) == Strip(s)
  {
    var r := Strip(s);
    StripTrims(s);
    StripTrims(r);
    assert TrimStart(r) == r;
    assert TrimEnd(r) == r;
    if Bare(s) {
      assert TrimStart(s) == s;
      assert TrimEnd(s) == s;
    }
  }

  /** Python's `s.endswith(suffix)`; `startswith` is Dafny's prefix test `p <= s`. */
  predicate EndsWith(s: string, suffix: string) {
    |suffix| <= |s| && s[|s| - |suffix|..] == suffix
  }

  /** Python's `s.split(sep, 1)` for a one-character separator: the text before and after
      the first `sep`, or None when `sep` does not occur (Python returns the one-element list `[s]`). */
  function SplitOnce(s: string, sep: char): (r: Option<(string, string)>)
    ensures r.None? <==> sep !in s
    ensures r.Some? ==> s == r.value.0 + [sep] + r.value.1 && sep !in r.value.0
  {
    if |s| == 0 then None
    else if s[0] == sep then
      assert s == [] + [sep] + s[1..];
      Some(([], s[1..]))
    else
      match SplitOnce(s[1..], sep)
      case None =>
        assert s == [s[0]] + s[1..];
        None
      case Some((head, tail)) =>
        assert s == [s[0]] + s[1..];
        Some(([s[0]] + head, tail))
  }

  predicate IsAsciiLower(c: char) { 'a' <= c <= 'z' }

  predicate IsAsciiUpper(c: char) { 'A' <= c <= 'Z' }

  /** ASCII-only upper-casing of one character. */
  function AsciiUpper(c: char): char {
    if IsAsciiLower(c) then (c as int - 32) as char else c
  }

  /** The non-ASCII characters whose Python upper-case form is made of ASCII letters only:
      sharp s, dotless i, long s and the Latin ligatures U+FB00 to U+FB06. */
  const AsciiFolds: map<char, string> := map[
    '\U{00DF}' := "SS",
    '\U{0131}' := "I",
    '\U{017F}' := "S",
    '\U{FB00}' := "FF",
    '\U{FB01}' := "FI",
    '\U{FB02}' := "FL",
    '\U{FB03}' := "FFI",
    '\U{FB04}' := "FFL",
    '\U{FB05}' := "ST",
    '\U{FB06}' := "ST"
  ]

  /** A character `upper()` rewrites into ASCII. */
  predicate Raises(c: char) {
    IsAsciiLower(c) || c in AsciiFolds
  }

  /** Python's `c.upper()` as far as it can yield ASCII letters; other characters are kept. */
  function UpperChar(c: char): string {
    if IsAsciiLower(c) then [AsciiUpper(c)]
    else if c in AsciiFolds then AsciiFolds[c]
    else [c]
  }

  /** Python's `s.upper()`, one character at a time. */
  function Upper(s: string): (r: string)
    ensures forall k :: 0 <= k < |r| ==> !IsAsciiLower(r[k])
    ensures |r| >= |s|
  {
    if |s| == 0 then [] else UpperChar(s[0]) + Upper(s[1..])
  }

  /** Upper-casing changes a string exactly when it holds a character upper-casing raises. */
  lemma {:induction false} UpperFixedPoint(s: string)
    ensures Upper(s) == s <==> forall k :: 0 <= k < |s| ==> !Raises(s[k])
  {
    if |s| > 0 {
      UpperFixedPoint(s[1..]);
      var head := UpperChar(s[0]);
      assert IsAsciiUpper(head[0]) || head == [s[0]];
      if forall k :: 0 <= k < |s| ==> !Raises(s[k]) {
        assert forall k :: 0 <= k < |s[1..]| ==> !Raises(s[1..][k]) by {
          forall k | 0 <= k < |s[1..]| ensures !Raises(s[1..][k]) {
            assert s[1..][k] == s[k + 1];
          }
        }
        assert s == [s[0]] + s[1..];
      } else if Raises(s[0]) {
        assert Upper(s)[0] == head[0];
        assert IsAsciiUpper(head[0]);
        assert !IsAsciiUpper(s[0]);
      } else {
        var k :| 0 <= k < |s| && Raises(s[k]);
        assert s[1..][k - 1] == s[k];
      }
    }
  }

  /** Strings that agree up to ASCII case upper-case to the same string. */
  lemma {:induction false} UpperIgnoresAsciiCase(s: string, t: string)
    requires |s| == |t|
    requires forall k :: 0 <= k < |s| ==> AsciiUpper(s[k]) == AsciiUpper(t[k])
    ensures Upper(s) == Upper(t)
  {
    if |s| > 0 {
      assert AsciiUpper(s[0]) == AsciiUpper(t[0]);
      assert UpperChar(s[0]) == UpperChar(t[0]);
      UpperIgnoresAsciiCase(s[1..], t[1..]);
    }
  }
}

=== FILE: wrappers.dfy ===
/** Failure-carrying values used throughout the model: Python's `None` and its exceptions. */
module Wrappers {

  /** A value that may be absent, as Python's `Optional[...]`. */
  datatype Option<+T> = None | Some(value: T) {

    /** A helper: the value, or `default` when there is none (Python's `dict.get(key, default)`). */
    function GetOr(default: T): T {
      match this
      case Some(v) => v
      case None => default
    }
  }

  /** Either a value or the error that stopped its computation. */
  datatype Result<+T, +E> = Success(value: T) | Failure(error: E)
}
